=== FILE: README.md ===
# Offline-first todo synchronisation, modelled in Dafny

The application keeps a todo list on a client that may be offline. The client
records every mutation as an event in a per-note queue (`TodoService` in
`todoService.ts`), optimistically updates its note cache, and pushes the whole
queue to the server. The server (`TodoNotesController::saveEvents`) applies each
note's events in order against the note table with a last-write-wins rule on the
row's `updated_at`, and answers with the permanent ids of the notes it created
and a list of per-note errors. The client then clears its queue and renames its
provisional (negative) note ids to the permanent ones.

The model is functional: every client operation is a pure step on a `Client`
value (queue `map<int, seq<Event>>`, cache `seq<Todo>`, provisional id counter,
retry timer), and `saveEvents` is a recursive fold over the request body that
threads the table, the in-memory note, the high-water timestamp and the
`ids`/`errors` accumulators.

| file | module | models |
|---|---|---|
| `wrappers.dfy` | `Wrappers` | `Option`, for `undefined`/`null` |
| `todo_event.dfy` | `TodoEvent` | the event schema of `todoEvent.ts`, and the find-and-splice helpers the client uses to cancel a pending event |
| `todo_service.dfy` | `TodoService` | `add`, `mark`, `edit`, `delete`, `addEvent`, `pushEvents`, the `_id` counter, the retry timer |
| `todo_service_properties.dfy` | `TodoServiceProperties` | the queue invariant and the cancel/replace laws |
| `notes_controller.dfy` | `TodoNotesController` | `saveEvents` |
| `notes_controller_properties.dfy` | `TodoNotesControllerProperties` | how a whole request may change the table |
| `notes_controller_rules.dfy` | `TodoNotesControllerRules` | the per-id rules: validation, not found, staleness, delete, high-water write, 400 |
| `notes_controller_replay.dfy` | `TodoNotesControllerReplay` | sending an applied request again: when it changes nothing and when it does |
| `sync.dfy` | `Sync` | the queue sent as a request, and the response fed back into `pushEvents` |

Parameters stand in for what the code reads from its environment:
- the clock: `now` (`getCurrentTimestamp()`);
- the HTTP exchange: a `Reply`, which is `Accepted(ids)`, `Unauthorized` (status 401) or `Failed` (network error or any other non-success status);
- the handle `setTimeout` returns: `timer`.

The scheduler's state is a set `scheduled` of handles not yet fired or cleared. A timer firing is `RetryFires`.

On the server:
- the table is a map from row id to `Note` with an auto-increment counter `nextId`;
- `Todo::create` inserts at `nextId`;
- `Todo::find` is a map lookup;
- `$todo->save()` is an UPDATE of an existing row.

The validator rules are predicates:
- `ValidTimestamp` is `required|numeric|min:1`;
- `Filled` is `required|string|min:1`, where a blank string counts as missing because `required` trims it.

`Todo.php` turns off Eloquent timestamps, so `created_at`, `updated_at` and `completed_at` are plain integers. `updated_at` is an `Option<int>` because the controller checks it for null.

## Model

Helpers such as `ToWire`, `EncodeQueue`, `Remap`, `Resolve`, `SetCompleted`, `HasPendingCreate` and `Supersede` are definitions. The rows of the members that use them state their meaning: `ClientBatchNeverRejected`, `AddRoundTrip`, `RemapKeepsUnique`, `MissingNoteAbandonsId`, `Mark`, `Delete` and `SupersedeCount`.

| member | source | states |
|---|---|---|
| TodoEvent.FirstIndex | src/ui/src/services/todo/todoService.ts:104-106 | `findIndex` by event class: None exactly when no event of the class is queued, otherwise the first position holding one |
| TodoEvent.RemoveAt | src/ui/src/services/todo/todoService.ts:108 | `splice(i, 1)` drops one event and keeps the others in their order |
| TodoEvent.SupersedeCount | src/ui/src/services/todo/todoService.ts:119-125 | `Supersede`, the cancel step of `edit`: removing the first pending event of a class lowers that class's count by one (when there was one) and leaves every other class's count alone |
| TodoService.Initial | src/ui/src/services/todo/todoService.ts:21-26 | a fresh client has an empty queue and cache, holds no timer handle and has none scheduled, and hands out -1 first |
| TodoService.AddEvent | src/ui/src/services/todo/todoService.ts:239-242 | the event goes at the end of the id's list, which is created when absent; every other id's list is unchanged |
| TodoService.Add | src/ui/src/services/todo/todoService.ts:82-98 | the new note takes the counter value, which then decreases; it has `created_at` = now and no `completed_at`; it is appended to the cache; one `create` with the same timestamp and text is appended under its id |
| TodoService.MarkQueue | src/ui/src/services/todo/todoService.ts:104-114 | if a `complete`/`uncomplete` is queued for the id, that one event is removed and nothing is appended; otherwise one `complete` or `uncomplete` is appended; other ids untouched |
| TodoService.Mark | src/ui/src/services/todo/todoService.ts:100-117 | the marked note's `completed_at` becomes the timestamp when completed and absent otherwise (the cache update `SetCompleted`); ids, texts, creation times and other notes are unchanged; the queue changes as in `MarkQueue` |
| TodoService.Edit | src/ui/src/services/todo/todoService.ts:119-134 | the first queued `edit` of the id is removed and a fresh `edit` with the text is appended; a queue that had at most one `edit` ends with exactly one; other ids and the cache untouched |
| TodoService.TodoIndex | src/ui/src/services/todo/todoService.ts:143 | `findIndex` on the cache: None exactly when no cached note has the id, otherwise the first that does |
| TodoService.RemoveTodo | src/ui/src/services/todo/todoService.ts:143-146 | the cache loses its first note with the id: the notes before it keep their positions, the ones after it move down by one; a cache without the id is unchanged |
| TodoService.Delete | src/ui/src/services/todo/todoService.ts:136-156 | with a pending `create` (`HasPendingCreate`) the id's entry disappears and no `delete` is queued; otherwise the entry becomes exactly `[delete@now]`; other ids untouched; the note leaves the cache |
| TodoServiceProperties.RemapKeepsUnique | src/ui/src/services/todo/todoService.ts:185-191 | renaming cached notes to the server's ids keeps cache ids distinct, when those ids are positive, distinct, and not already cached |
| TodoService.PushEvents | src/ui/src/services/todo/todoService.ts:158-232 | empty queue: success, whatever the reply, nothing changed; 401: re-raised, nothing changed; failure: queue and cache kept, held timer cleared, new timer held and scheduled; success: queue emptied, cache remapped, held timer cleared; at most one timer stays pending |
| TodoService.RetryFires | src/ui/src/services/todo/todoService.ts:221-224 | a fired retry leaves the scheduled timers and then runs the push: with an empty queue it succeeds with nothing else changed; a 401 propagates; an accepted reply clears the queue, remaps the cache and clears the held timer; a failure schedules the new timer; at most one timer stays pending |
| TodoServiceProperties.InitialInv | src/ui/src/services/todo/todoService.ts:21-26 | the client invariant holds at start |
| TodoServiceProperties.AddFresh | src/ui/src/services/todo/todoService.ts:84 | the provisional id `add` takes is used by no queued entry and no cached note, so its queue is exactly the one `create` and cache ids stay distinct; the invariant is kept |
| TodoServiceProperties.MarkKeepsInv | src/ui/src/services/todo/todoService.ts:104-114 | after `mark` a note still has at most one pending completion event and at most one pending `edit` |
| TodoServiceProperties.EditKeepsInv | src/ui/src/services/todo/todoService.ts:119-131 | after `edit` a note never holds two queued `edit` events |
| TodoServiceProperties.DeleteKeepsInv | src/ui/src/services/todo/todoService.ts:136-156 | `delete` keeps the invariant, distinct cache ids included |
| TodoServiceProperties.PushKeepsInv | src/ui/src/services/todo/todoService.ts:183-195 | a push keeps the invariant, distinct cache ids included, when the server's ids are positive, distinct, and not already cached |
| TodoServiceProperties.RetryKeepsInv | src/ui/src/services/todo/todoService.ts:217-224 | a firing retry keeps the invariant |
| TodoServiceProperties.MarkTwiceCancels | src/ui/src/services/todo/todoService.spec.ts:315-357 | two marks before a push leave the id's queue as it was before the first, with no completion event |
| TodoServiceProperties.EditTwiceKeepsLatest | src/ui/src/services/todo/todoService.spec.ts:394-448 | two edits before a push leave only the second, after the events that preceded the first |
| TodoServiceProperties.DeleteRemovesNote | src/ui/src/services/todo/todoService.ts:143-146 | with distinct cache ids, no note with the id remains and every other note is kept |
| TodoServiceProperties.DeleteUnsentSendsNothing | src/ui/src/services/todo/todoService.spec.ts:478-515 | deleting a note whose `create` is still queued removes its entry and queues nothing for it |
| TodoServiceProperties.FailedPushSchedulesOneRetry | src/ui/src/services/todo/todoService.ts:205-226 | after a failed push exactly the new retry timer is pending, and queue and cache are unchanged |
| TodoServiceProperties.AcceptedPushClearsRetry | src/ui/src/services/todo/todoService.ts:183-195 | after an accepted push the queue is empty and no timer is pending |
| TodoNotesController.RaiseHigh | src/api/app/Http/Controllers/TodoNotesController.php:179 | the high-water mark becomes the larger of itself and the event timestamp |
| TodoNotesController.ApplyEvent | src/api/app/Http/Controllers/TodoNotesController.php:135-237 | one event: a 400 exactly for a valid timestamp with an unknown type, with the table as it stands; an event that is not the last records nothing; a `break` is a `delete` or exactly one error for the id with the table untouched; only the submitted id is mapped, and the table changes only by a `create` inserting at the counter |
| TodoNotesController.RunSequence | src/api/app/Http/Controllers/TodoNotesController.php:135-238 | one id's sequence records at most one error, under that id; only that id is mapped; a 400 needs an event of unknown type |
| TodoNotesController.Persist | src/api/app/Http/Controllers/TodoNotesController.php:240-243 | the write after a sequence: when the note was resolved, not deleted, and an event was applied (high-water mark at least 0), the working row becomes the in-memory copy with `updated_at` = the high-water mark; otherwise the table is unchanged; no other row changes |
| TodoNotesController.SaveFrom | src/api/app/Http/Controllers/TodoNotesController.php:131-244 | the outer loop keeps the errors already recorded, adds at most one per remaining id, each under a submitted id, and maps only submitted ids; a 400 needs an event of unknown type |
| TodoNotesController.SaveEvents | src/api/app/Http/Controllers/TodoNotesController.php:124-247 | a 200 has at most one error per submitted id and maps only submitted ids; a 400 means some event had an unknown type |
| TodoNotesControllerProperties.ApplyEventInv | src/api/app/Http/Controllers/TodoNotesController.php:135-237 | one event keeps the sequence invariant: rows that existed are untouched, the working note agrees with its row on `updated_at`, and the high-water mark covers it |
| TodoNotesControllerProperties.RunSequenceInv | src/api/app/Http/Controllers/TodoNotesController.php:135-238 | a whole sequence keeps it, and a 400 in the middle leaves a table related to the one before |
| TodoNotesControllerProperties.PersistEvolves | src/api/app/Http/Controllers/TodoNotesController.php:240-243 | the single write after a sequence never moves a row's `updated_at` backwards |
| TodoNotesControllerProperties.SaveFromEvolves | src/api/app/Http/Controllers/TodoNotesController.php:131-244 | the outer loop keeps the table well formed, never lowers `updated_at`, and answers only ids it allocated |
| TodoNotesControllerProperties.UpdatedNeverDecreases | src/api/app/Http/Controllers/TodoNotesController.php:124-247 | over a whole request, 400 included: no surviving row's `updated_at` decreases, new rows get new ids, and every id in `ids` is a positive id no row had before, answered for one submitted id only |
| TodoNotesControllerRules.InvalidTimestampAbandonsId | src/api/app/Http/Controllers/TodoNotesController.php:136-143 | at any point of a sequence, a missing or non-positive timestamp records one error for the id and abandons its remaining events, whatever their type |
| TodoNotesControllerRules.CreateInsertsNote | src/api/app/Http/Controllers/TodoNotesController.php:155-164 | a `create` with text adds a row under the next id with `created_at` = `updated_at` = timestamp and no `completed_at`, and records `ids[id]` |
| TodoNotesControllerRules.CreateNeedsText | src/api/app/Http/Controllers/TodoNotesController.php:145-153 | at any point of a sequence, a `create` with missing or blank text records one error and abandons the id's remaining events |
| TodoNotesControllerRules.MissingNoteAbandonsId | src/api/app/Http/Controllers/TodoNotesController.php:166-172 | `complete`/`uncomplete`/`edit`/`delete` on an id with no row records `Not found` and abandons the id |
| TodoNotesControllerRules.StaleEventsChangeNothing | src/api/app/Http/Controllers/TodoNotesController.php:174-176 | events all older than the row's `updated_at` are skipped: no change, no error, not even for an `edit` without text |
| TodoNotesControllerRules.DeleteRemovesRow | src/api/app/Http/Controllers/TodoNotesController.php:219-234 | at any point of a sequence, a `delete` that is not stale removes the row the sequence works on (looked up, or just created); later events are ignored, nothing is recorded and no write follows |
| TodoNotesControllerRules.LaterListedOlderEventApplies | src/api/tests/TodoTest.php:240-254 | staleness is judged against the stored `updated_at`: an `edit` then an older `complete` both apply, and `updated_at` becomes the larger timestamp |
| TodoNotesControllerRules.EarlierChangesSurviveError | src/api/app/Http/Controllers/TodoNotesController.php:136-243 | `complete`/`uncomplete`/`edit` events applied before a bad timestamp, a textless `create` or a textless non-stale `edit` are still written with the high-water `updated_at`; the error is recorded once and the next id starts from that table |
| TodoNotesControllerRules.UnknownTypeAborts | src/api/app/Http/Controllers/TodoNotesController.php:235-237 | at any point of a sequence, an unknown type returns 400 at once with the table as it stands; no later event or id is processed |
| TodoNotesControllerRules.DeleteDiscardsChanges | src/api/app/Http/Controllers/TodoNotesController.php:219-243 | a `delete` after `complete`/`uncomplete`/`edit` events on the same row removes the row; the changes made in memory are never written |
| TodoNotesControllerRules.UnknownTypeDropsChanges | src/api/app/Http/Controllers/TodoNotesController.php:235-243 | an unknown type after `complete`/`uncomplete`/`edit` events on a row answers 400 with the row as it was, because the write comes after the loop |
| TodoNotesControllerRules.UnknownTypeAfterCreateKeepsRow | src/api/app/Http/Controllers/TodoNotesController.php:155-164 | an unknown type after a `create` in the same sequence answers 400 but keeps the inserted row |
| TodoNotesControllerRules.ChangedRun | src/api/app/Http/Controllers/TodoNotesController.php:135-243 | a sequence opening with `complete`/`uncomplete`/`edit` events on an existing row goes on from the row changed in memory, and writing it back gives the high-water write |
| TodoNotesControllerRules.SaveSplit | src/api/app/Http/Controllers/TodoNotesController.php:131-246 | ids are processed one after another with nothing rolled back: the later ids start from the table the earlier ones left |
| TodoNotesControllerRules.KnownTypesNeverRejected | src/api/app/Http/Controllers/TodoNotesController.php:246 | when every event has a known type the answer is 200 with `{ids, errors}` |
| TodoNotesControllerRules.UpdatedAtIsHighWater | src/api/app/Http/Controllers/TodoNotesController.php:134-243 | a sequence of `complete`/`uncomplete`/`edit` on a row writes the row once: the events not older than the stored `updated_at`, applied in order, with `updated_at` = the largest of their timestamps; the row is left as it was when all were stale |
| TodoNotesControllerRules.MutationsRun | src/api/app/Http/Controllers/TodoNotesController.php:165-218 | inside the loop, from any working note (an existing row or one just created), the working copy is that note with the admitted events applied in order, its key is kept, and `$timestamp` is raised to the largest admitted timestamp |
| TodoNotesControllerRules.CreateThenChanges | src/api/app/Http/Controllers/TodoNotesController.php:155-243 | a `create` followed by `complete`/`uncomplete`/`edit` inserts the row under the counter, maps the submitted id to it, applies the later events not older than the create, and writes the row once with `updated_at` = the largest applied timestamp |
| TodoNotesControllerRules.CreateBesideMissingDelete | src/api/app/Http/Controllers/TodoNotesController.php:145-172 | a valid `create` and a `delete` of a missing note: 200, the create's mapping, exactly one `Not found` |
| TodoNotesControllerReplay.LastWriteWins | src/api/app/Http/Controllers/TodoNotesController.php:178-217 | each of `text` and `completed_at` ends with the value the last event writing it gave, or keeps its value |
| TodoNotesControllerReplay.ApplyAllTwice | src/api/app/Http/Controllers/TodoNotesController.php:178-217 | applying the same admitted events a second time changes nothing |
| TodoNotesControllerReplay.HighWaterAgain | src/api/app/Http/Controllers/TodoNotesController.php:174-179 | against a stored `updated_at` equal to the high-water mark, only events stamped exactly that time are admitted again |
| TodoNotesControllerReplay.AdmittedTail | src/api/app/Http/Controllers/TodoNotesController.php:174-176 | in a time-ordered sequence, the events admitted against a later `updated_at` are a tail of those admitted against an earlier one |
| TodoNotesControllerReplay.SingleEntry | src/api/app/Http/Controllers/TodoNotesController.php:131-246 | a one-id request of `complete`/`uncomplete`/`edit` answers 200 with nothing in it and writes the row as `UpdatedAtIsHighWater` says |
| TodoNotesControllerReplay.OrderedReplayChangesNothing | src/api/app/Http/Controllers/TodoNotesController.php:174-243 | sending again an applied request of time-ordered `complete`/`uncomplete`/`edit` events leaves the table as it is and answers the same |
| TodoNotesControllerReplay.ReplayIsNotIdempotent | src/api/app/Http/Controllers/TodoNotesController.php:174-179 | without the ordering, replaying an applied request can change the row again |
| TodoNotesControllerReplay.ReplayedCreateDuplicates | src/api/app/Http/Controllers/TodoNotesController.php:155-163 | a `create` sent again after it was applied is inserted again: two identical rows under consecutive ids, and a different id in each answer |
| Sync.ClientBatchNeverRejected | src/api/app/Http/Controllers/TodoNotesController.php:235-237 | a queue the client built never draws the 400 |
| Sync.ServerReplyKeepsClientInv | src/ui/src/services/todo/todoService.ts:183-191 | applying the server's `ids` keeps the client invariant: renamed notes never clash with each other, with later provisional ids, or with server ids the client already caches from this table |
| Sync.AddRoundTrip | src/ui/src/services/todo/todoService.ts:82-98 | a note added on a fresh client and pushed is stored with `created_at` = `updated_at` = its timestamp; the client's cached note takes the new row id and the queue empties |

## Behaviour of the code that the rest of the app does not expect

The model follows the code in each case below.
- On success `pushEvents` empties the whole queue (`todoService.ts:184`) and renames only cached notes (`todoService.ts:185-191`). No queue entry is renamed.
- `retryTimeout` is cleared with `clearTimeout` but never reset (`todoService.ts:193-195`). The model's `retry` field therefore keeps its stale handle, while `scheduled` loses it.
- An empty queue returns before the retry timer is touched (`todoService.ts:163-165`). A pending retry therefore stays pending.
- `mark(true)` then `mark(false)` leaves the id's entry in place with an empty list (`MarkTwiceCancels`). The next push therefore still sends a request.
- The server checks staleness against `updated_at` as it was before the request. The row is written only once, after the sequence. So a later-listed event with an older timestamp is still applied.
  - Equal timestamps are applied too. Replaying an applied request is therefore not always a no-op (`ReplayIsNotIdempotent`).
  - Replay is a no-op when every event is strictly older than the stored `updated_at` (`StaleEventsChangeNothing`).
  - Replay is also a no-op for `complete`/`uncomplete`/`edit` events on an existing row whose timestamps never go down (`OrderedReplayChangesNothing`).
- A `create` is not protected against replay. If the reply to a request that the server committed is lost, `pushEvents` keeps the queue (`todoService.ts:205-226`) and the retry sends the `create` again. The note is then inserted twice under two ids (`ReplayedCreateDuplicates`). The same happens when an unknown type later in the request draws a 400 after the insert (`UnknownTypeAfterCreateKeepsRow`).
- A `delete` after changes to the same row in one sequence drops those changes, and an unknown type after them leaves the row as it was (`DeleteDiscardsChanges`, `UnknownTypeDropsChanges`). The row is written only after the loop.
- The timestamp is validated before the type is dispatched. An event with an unknown type but a bad timestamp therefore gives a per-id error, not a 400.
- A `create` in the middle of a sequence replaces the working note, so changes made so far to the previous note are never saved. It also sets the high-water mark to its own timestamp rather than raising it (`TodoNotesController.php:164`).

## Left out

- `getAll`, `loadFromLocalStorage` and the local-storage save/load helpers: network and browser storage I/O. Persisting does not change the model's state.
- The toasts, the `isLoading` flag and the `isRetry` argument of `pushEvents`: the argument only selects which toast is shown.
- The 10-second delay and the async callback chain. Only which timers are pending is modelled. A push is atomic in the model, so events queued while a request is in flight cannot be lost to the `store.events = {}` on success.
- The singleton `instance`/`create` plumbing of `TodoService`.
- TodoService.Mark: the note is identified by its id in the cache rather than by the object the caller passes. The two agree because cache ids stay distinct (part of `Inv`). A note object that is not in the cache is not modelled.
- TodoService.Add, TodoService.Mark, TodoService.Edit, TodoService.Delete: each source method ends with `return await this.pushEvents()` (`todoService.ts:97`, `116`, `133`, `155`). The model stops before that call. The push is the separate `PushEvents` step, and the boolean the source method returns is the `ok` of its `Returned` outcome.
- The single-item endpoints `create`, `markDone`, `markPending`, `edit`, `delete` and `getAll` of the controller: thin CRUD stamped with the server clock.
- Ownership: the table has no `user_id`, and `Todo::find` in the source does not filter by owner either.
- JSON decoding on the server: request keys are taken as integers, in body order. A numeric value is taken as an integer. A `type` that names no kind is `None`. An event with no `type` key at all is not modelled: reading the missing index at `TodoNotesController.php:145` raises a PHP notice, which Lumen turns into an exception, so the server answers 500 rather than 400. Non-array sequences and fractional timestamps are not modelled.
- The `errors` entries record the id and the kind of problem, not Laravel's message bag.
- The client's `add` after a page reload: the counter restarts at -1 while reloaded queue entries may still use -1. Reloading is I/O and is not modelled.
- Sync.ServerReplyKeepsClientInv: assumes every positive id in the client's cache was handed out earlier by the same table (it lies below `nextId`). The model does not link the cache to the table, which other clients of the same user also change.

=== FILE: notes_controller.dfy ===
/**
 The server half: `TodoNotesController::saveEvents`, which folds each id's
 event sequence over the note table. The table is a map from id to row with
 an auto-increment counter; the authenticated user, the validator and the
 ORM are replaced by the predicates and map updates below.
 */
module TodoNotesController {
  import opened Wrappers
  import opened TodoEvent

  /** A row of the `todos` table (the owner column is not modelled). */
  datatype Note = Note(text: string, created_at: int, updated_at: Option<int>, completed_at: Option<int>)

  /** The table: rows by id, and the id the next insert receives. */
  datatype Db = Db(notes: map<int, Note>, nextId: int)

  /** Ids are positive and below the auto-increment counter. */
  predicate WellFormed(db: Db) {
    db.nextId >= 1 && forall k :: k in db.notes ==> 1 <= k < db.nextId
  }

  /**
   An event as decoded from the request body. `kind` is None when `type` names
   none of the five kinds; `timestamp` is None when it is missing or not numeric;
   `text` is None when it is missing or not a string.
   */
  datatype WireEvent = WireEvent(kind: Option<EventType>, timestamp: Option<int>, text: Option<string>)

  /** The request body: ids with their event sequences, in the body's key order. */
  type Batch = seq<(int, seq<WireEvent>)>

  datatype Problem = InvalidTimestamp | InvalidText | NotFound

  /** One entry of the `errors` array: the id and what went wrong with it. */
  datatype Failure = Failure(id: int, problem: Problem)

  /** 200 with `{ids, errors}`, or 400 `Unknown event type`. */
  datatype Response = Saved(ids: map<int, int>, errors: seq<Failure>) | UnknownEventType

  /** The table after the request, and the response. Nothing is rolled back on a 400. */
  datatype Outcome = Outcome(db: Db, response: Response)

  /** `timestamp: required|numeric|min:1`. */
  predicate ValidTimestamp(ts: Option<int>) {
    ts.Some? && ts.value >= 1
  }

  /** The characters PHP's `trim` strips by default. */
  predicate IsTrimmed(c: char) {
    c == ' ' || c == '\t' || c == '\n' || c == '\r' || c == '\0' || c == '\U{0B}'
  }

  /** `text: required|string|min:1`: a string that is not blank once trimmed. */
  predicate Filled(text: Option<string>) {
    text.Some? && exists i :: 0 <= i < |text.value| && !IsTrimmed(text.value[i])
  }

  /** The last-write-wins rule: the stored note was updated after the event. */
  predicate Stale(updated_at: Option<int>, timestamp: int) {
    updated_at.Some? && updated_at.value > timestamp
  }

  /** The note a sequence works on: its row id and the in-memory copy of the row. */
  datatype Working = Working(key: int, note: Note)

  /**
   The variables of one iteration of the outer loop: the table, `$todo`,
   `$removed`, the high-water `$timestamp`, and the `$ids`/`$errors` accumulators.
   */
  datatype Pass = Pass(db: Db, todo: Option<Working>, removed: bool, high: int, ids: map<int, int>, errors: seq<Failure>)

  /** After one event: go on with the next, `break`, or return the 400. */
  datatype Step = Next(st: Pass) | Halt(st: Pass) | Abort(db: Db)

  /** After one id's sequence: the loop state, or the 400 with the table as it stands. */
  datatype Run = Finished(st: Pass) | Aborted(db: Db)

  function Fail(st: Pass, id: int, p: Problem): Pass {
    st.(errors := st.errors + [Failure(id, p)])
  }

  /** `$todo`, looked up by the submitted id when the sequence has not resolved it yet. */
  function Resolve(st: Pass, id: int): (r: Option<Working>)
    ensures st.todo.Some? ==> r == st.todo
    ensures st.todo.None? && id in st.db.notes ==> r == Some(Working(id, st.db.notes[id]))
    ensures st.todo.None? && id !in st.db.notes ==> r.None?
  {
    if st.todo.Some? then st.todo
    else if id in st.db.notes then Some(Working(id, st.db.notes[id]))
    else None
  }

  function RaiseHigh(high: int, timestamp: int): (r: int)
    ensures r >= high && r >= timestamp && (r == high || r == timestamp)
  {
    if timestamp > high then timestamp else high
  }

  /** One iteration of the inner loop: event `e` of the sequence submitted under `id`. */
  function ApplyEvent(st: Pass, id: int, e: WireEvent): (r: Step)
    ensures r.Abort? <==> ValidTimestamp(e.timestamp) && e.kind.None?
    ensures r.Abort? ==> r.db == st.db
    ensures r.Next? ==> r.st.errors == st.errors && r.st.removed == st.removed && r.st.todo.Some?
    ensures r.Halt? ==>
      || (r.st.removed && r.st.errors == st.errors)
      || (&& r.st.db == st.db && r.st.ids == st.ids
          && |r.st.errors| == |st.errors| + 1
          && r.st.errors == st.errors + [Failure(id, r.st.errors[|st.errors|].problem)])
    ensures !r.Abort? ==> r.st.ids.Keys <= st.ids.Keys + {id}
    ensures !r.Abort? ==> forall k :: k in st.ids && k != id ==> k in r.st.ids && r.st.ids[k] == st.ids[k]
    ensures r.Next? && r.st.db != st.db ==>
      && e.kind == Some(Create)
      && r.st.db == Db(st.db.notes[st.db.nextId := r.st.todo.value.note], st.db.nextId + 1)
      && r.st.ids == st.ids[id := st.db.nextId]
  {
    if !ValidTimestamp(e.timestamp) then Halt(Fail(st, id, InvalidTimestamp))
    else
      var ts := e.timestamp.value;
      match e.kind
      case None => Abort(st.db)
      case Some(kind) =>
        if kind == Create then
          if !Filled(e.text) then Halt(Fail(st, id, InvalidText))
          else
            var note := Note(e.text.value, ts, Some(ts), None);
            var key := st.db.nextId;
            Next(st.(db := Db(st.db.notes[key := note], key + 1),
                     todo := Some(Working(key, note)),
                     ids := st.ids[id := key],
                     high := ts))
        else
          match Resolve(st, id)
          case None => Halt(Fail(st, id, NotFound))
          case Some(w) =>
            if Stale(w.note.updated_at, ts) then Next(st.(todo := Some(w)))
            else if kind == Complete then
              Next(st.(todo := Some(w.(note := w.note.(completed_at := Some(ts)))), high := RaiseHigh(st.high, ts)))
            else if kind == Uncomplete then
              Next(st.(todo := Some(w.(note := w.note.(completed_at := None))), high := RaiseHigh(st.high, ts)))
            else if kind == EventType.Edit then
              if !Filled(e.text) then Halt(Fail(st.(todo := Some(w)), id, InvalidText))
              else Next(st.(todo := Some(w.(note := w.note.(text := e.text.value))), high := RaiseHigh(st.high, ts)))
            else
              Halt(st.(db := st.db.(notes := st.db.notes - {w.key}), todo := Some(w), removed := true))
  }

  /** The inner loop over one id's events. */
  function RunSequence(st: Pass, id: int, evs: seq<WireEvent>): (r: Run)
    ensures r.Aborted? ==> exists i :: 0 <= i < |evs| && evs[i].kind.None?
    ensures r.Finished? ==>
      && |st.errors| <= |r.st.errors| <= |st.errors| + 1
      && r.st.errors[..|st.errors|] == st.errors
      && (forall i :: |st.errors| <= i < |r.st.errors| ==> r.st.errors[i].id == id)
    ensures r.Finished? ==> r.st.ids.Keys <= st.ids.Keys + {id}
    ensures r.Finished? ==> forall k :: k in st.ids && k != id ==> k in r.st.ids && r.st.ids[k] == st.ids[k]
    decreases |evs|
  {
    if |evs| == 0 then Finished(st)
    else match ApplyEvent(st, id, evs[0])
      case Next(st') =>
        assert forall i :: 0 <= i < |evs| - 1 ==> evs[1..][i] == evs[i + 1];
        RunSequence(st', id, evs[1..])
      case Halt(st') => Finished(st')
      case Abort(db) => Aborted(db)
  }

  /** The single write after a sequence: a resolved, not removed note that had an
      event applied gets `updated_at` set to the high-water mark (an UPDATE of its row). */
  function Persist(st: Pass): (r: Db)
    ensures r.nextId == st.db.nextId && r.notes.Keys == st.db.notes.Keys
    ensures forall k :: k in st.db.notes && (st.todo.None? || k != st.todo.value.key) ==> r.notes[k] == st.db.notes[k]
    ensures forall k :: k in st.db.notes && r.notes[k] != st.db.notes[k] ==>
      !st.removed && r.notes[k].updated_at == Some(st.high) && st.high >= 0
    ensures st.todo.Some? && !st.removed && st.high >= 0 && st.todo.value.key in st.db.notes ==>
      r.notes[st.todo.value.key] == st.todo.value.note.(updated_at := Some(st.high))
    ensures st.todo.None? || st.removed || st.high < 0 ==> r == st.db
  {
    match st.todo
    case Some(w) =>
      if !st.removed && st.high >= 0 && w.key in st.db.notes then
        st.db.(notes := st.db.notes[w.key := w.note.(updated_at := Some(st.high))])
      else st.db
    case None => st.db
  }

  /** The state a sequence starts from. */
  function Start(db: Db, ids: map<int, int>, errors: seq<Failure>): Pass {
    Pass(db, None, false, -1, ids, errors)
  }

  /** The outer loop, from the given accumulators on. */
  function SaveFrom(db: Db, batch: Batch, ids: map<int, int>, errors: seq<Failure>): (r: Outcome)
    ensures r.response.Saved? ==>
      && |errors| <= |r.response.errors| <= |errors| + |batch|
      && r.response.errors[..|errors|] == errors
      && (forall i :: |errors| <= i < |r.response.errors| ==> Submitted(batch, r.response.errors[i].id))
    ensures r.response.Saved? ==>
      forall k :: k in r.response.ids ==> k in ids || Submitted(batch, k)
    ensures r.response.UnknownEventType? ==> exists i :: 0 <= i < |batch| && !KnownKinds(batch[i].1)
    decreases |batch|
  {
    if |batch| == 0 then Outcome(db, Saved(ids, errors))
    else
      assert forall k :: Submitted(batch[1..], k) ==> Submitted(batch, k) by {
        assert forall i :: 0 <= i < |batch| - 1 ==> batch[1..][i] == batch[i + 1];
      }
      assert forall i :: 0 <= i < |batch| - 1 ==> batch[1..][i] == batch[i + 1];
      assert Submitted(batch, batch[0].0);
      match RunSequence(Start(db, ids, errors), batch[0].0, batch[0].1)
      case Aborted(db') => Outcome(db', UnknownEventType)
      case Finished(st) => SaveFrom(Persist(st), batch[1..], st.ids, st.errors)
  }

  /** `id` is one of the request's keys. */
  predicate Submitted(batch: Batch, id: int) {
    exists i :: 0 <= i < |batch| && batch[i].0 == id
  }

  /** Every event of the sequence has one of the five types. */
  predicate KnownKinds(evs: seq<WireEvent>) {
    forall i :: 0 <= i < |evs| ==> evs[i].kind.Some?
  }

  /**
   `saveEvents`. A 200 carries at most one error per submitted id and maps only
   submitted ids; a 400 means some event had a type none of the five.
   */
  function SaveEvents(db: Db, batch: Batch): (r: Outcome)
    ensures r.response.Saved? ==> |r.response.errors| <= |batch|
    ensures r.response.Saved? ==> forall i :: 0 <= i < |r.response.errors| ==> Submitted(batch, r.response.errors[i].id)
    ensures r.response.Saved? ==> forall k :: k in r.response.ids ==> Submitted(batch, k)
    ensures r.response.UnknownEventType? ==> exists i :: 0 <= i < |batch| && !KnownKinds(batch[i].1)
  {
    SaveFrom(db, batch, map[], [])
  }
}

=== FILE: notes_controller_properties.dfy ===
/**
 Properties of `saveEvents` over a whole request: the invariant each event and
 each sequence keeps, `updated_at` never decreases, and the answered ids are
 fresh and distinct. The per-id rules are in `TodoNotesControllerRules`.
 */
module TodoNotesControllerProperties {
  import opened Wrappers
  import opened TodoEvent
  import opened TodoNotesController

  /** `updated_at` did not go backwards (a null may become anything). */
  predicate UpdatedLe(a: Option<int>, b: Option<int>) {
    a.None? || (b.Some? && a.value <= b.value)
  }

  /** How the table may change over a request: the counter only grows, new rows
      take ids from the counter, and rows that stay never have `updated_at` decrease. */
  predicate Evolves(db: Db, db': Db) {
    && db.nextId <= db'.nextId
    && (forall k :: k in db'.notes ==> k in db.notes || db.nextId <= k < db'.nextId)
    && (forall k :: k in db.notes && k in db'.notes ==>
          UpdatedLe(db.notes[k].updated_at, db'.notes[k].updated_at))
  }

  lemma EvolvesTrans(db0: Db, db1: Db, db2: Db)
    requires WellFormed(db0)
    requires Evolves(db0, db1) && Evolves(db1, db2)
    ensures Evolves(db0, db2)
  {
    forall k | k in db0.notes && k in db2.notes
      ensures UpdatedLe(db0.notes[k].updated_at, db2.notes[k].updated_at)
    {
      assert k < db0.nextId;
      assert k in db1.notes;
    }
  }

  /** Every id in the `ids` response was handed out by the counter during the
      request, and no row id is answered for two submitted ids. */
  predicate IdsFresh(ids: map<int, int>, from: int, to: int) {
    && (forall k :: k in ids ==> from <= ids[k] < to)
    && (forall a, b :: a in ids && b in ids && a != b ==> ids[a] != ids[b])
  }

  /**
   What holds between events of one sequence that started on `db0`: the rows
   that existed are untouched, the in-memory note agrees with its row on
   `updated_at`, and the high-water mark is at least that `updated_at`.
   */
  predicate SeqInv(db0: Db, n0: int, st: Pass) {
    && WellFormed(db0)
    && WellFormed(st.db)
    && n0 <= db0.nextId <= st.db.nextId
    && (forall k :: k in st.db.notes ==> k in db0.notes || db0.nextId <= k < st.db.nextId)
    && (forall k :: k in st.db.notes && k in db0.notes ==> st.db.notes[k] == db0.notes[k])
    && IdsFresh(st.ids, n0, st.db.nextId)
    && (st.todo.None? ==> st.high < 0)
    && (st.todo.Some? && !st.removed ==>
          && st.todo.value.key in st.db.notes
          && st.db.notes[st.todo.value.key].updated_at == st.todo.value.note.updated_at)
    && (st.todo.Some? && st.high >= 0 ==> UpdatedLe(st.todo.value.note.updated_at, Some(st.high)))
  }

  lemma ApplyEventInv(db0: Db, n0: int, st: Pass, id: int, e: WireEvent)
    requires SeqInv(db0, n0, st)
    requires !st.removed
    ensures ApplyEvent(st, id, e).Next? ==> SeqInv(db0, n0, ApplyEvent(st, id, e).st) && !ApplyEvent(st, id, e).st.removed
    ensures ApplyEvent(st, id, e).Halt? ==> SeqInv(db0, n0, ApplyEvent(st, id, e).st)
    ensures ApplyEvent(st, id, e).Abort? ==> ApplyEvent(st, id, e).db == st.db
  {
    if ValidTimestamp(e.timestamp) && e.kind == Some(Create) && Filled(e.text) {
      assert st.db.nextId !in db0.notes;
    }
  }

  lemma {:induction false} RunSequenceInv(db0: Db, n0: int, st: Pass, id: int, evs: seq<WireEvent>)
    requires SeqInv(db0, n0, st)
    requires !st.removed
    ensures RunSequence(st, id, evs).Finished? ==> SeqInv(db0, n0, RunSequence(st, id, evs).st)
    ensures RunSequence(st, id, evs).Aborted? ==>
      && WellFormed(RunSequence(st, id, evs).db)
      && Evolves(db0, RunSequence(st, id, evs).db)
    decreases |evs|
  {
    if |evs| > 0 {
      ApplyEventInv(db0, n0, st, id, evs[0]);
      match ApplyEvent(st, id, evs[0])
      case Next(st') => RunSequenceInv(db0, n0, st', id, evs[1..]);
      case Halt(st') =>
      case Abort(db) =>
    }
  }

  /** The single write at the end of a sequence keeps the table well formed and
      never moves `updated_at` backwards. */
  lemma PersistEvolves(db0: Db, n0: int, st: Pass)
    requires SeqInv(db0, n0, st)
    ensures WellFormed(Persist(st))
    ensures Evolves(db0, Persist(st))
    ensures Persist(st).nextId == st.db.nextId
  {
  }

  lemma {:induction false} SaveFromEvolves(db: Db, batch: Batch, ids: map<int, int>, errors: seq<Failure>, n0: int)
    requires WellFormed(db)
    requires n0 <= db.nextId
    requires IdsFresh(ids, n0, db.nextId)
    ensures WellFormed(SaveFrom(db, batch, ids, errors).db)
    ensures Evolves(db, SaveFrom(db, batch, ids, errors).db)
    ensures SaveFrom(db, batch, ids, errors).response.Saved? ==>
      IdsFresh(SaveFrom(db, batch, ids, errors).response.ids, n0, SaveFrom(db, batch, ids, errors).db.nextId)
    decreases |batch|
  {
    if |batch| > 0 {
      var st0 := Start(db, ids, errors);
      assert SeqInv(db, n0, st0);
      RunSequenceInv(db, n0, st0, batch[0].0, batch[0].1);
      match RunSequence(st0, batch[0].0, batch[0].1)
      case Aborted(db') =>
      case Finished(st) =>
        PersistEvolves(db, n0, st);
        var db1 := Persist(st);
        SaveFromEvolves(db1, batch[1..], st.ids, st.errors, n0);
        EvolvesTrans(db, db1, SaveFrom(db1, batch[1..], st.ids, st.errors).db);
    }
  }

  /**
   Over a whole request, including one cut short by a 400: the table stays well
   formed, no surviving row's `updated_at` decreases, rows only appear under new
   ids, and every id in the response is a new positive id no row had before,
   answered for one submitted id only.
   */
  lemma UpdatedNeverDecreases(db: Db, batch: Batch)
    requires WellFormed(db)
    ensures WellFormed(SaveEvents(db, batch).db)
    ensures forall k :: k in db.notes && k in SaveEvents(db, batch).db.notes ==>
      UpdatedLe(db.notes[k].updated_at, SaveEvents(db, batch).db.notes[k].updated_at)
    ensures forall k :: k in SaveEvents(db, batch).db.notes && k !in db.notes ==> k >= db.nextId
    ensures SaveEvents(db, batch).response.Saved? ==>
      forall k :: k in SaveEvents(db, batch).response.ids ==>
        SaveEvents(db, batch).response.ids[k] >= db.nextId >= 1 && SaveEvents(db, batch).response.ids[k] !in db.notes
    ensures SaveEvents(db, batch).response.Saved? ==>
      forall a, b :: a in SaveEvents(db, batch).response.ids && b in SaveEvents(db, batch).response.ids && a != b ==>
        SaveEvents(db, batch).response.ids[a] != SaveEvents(db, batch).response.ids[b]
  {
    SaveFromEvolves(db, batch, map[], [], db.nextId);
  }
}

=== FILE: notes_controller_replay.dfy ===
/**
 What happens when the client sends a request the server already applied (a
 reply lost on the way back, so the client kept its queue and retried). A
 `create` is inserted again. A `complete`/`uncomplete`/`edit` sequence on an
 existing row can change the row again, since the staleness rule admits equal
 timestamps and judges every event against the stored `updated_at`; when its
 timestamps never go down, the second application changes nothing.
 */
module TodoNotesControllerReplay {
  import opened Wrappers
  import opened TodoEvent
  import opened TodoNotesController
  import opened TodoNotesControllerRules

  /** Timestamps never decrease along the sequence. */
  predicate Ordered(evs: seq<WireEvent>)
    requires Mutations(evs)
  {
    forall i, j :: 0 <= i < j < |evs| ==> evs[i].timestamp.value <= evs[j].timestamp.value
  }

  /** The text the last `edit` of `evs` sets, if any. */
  function LastText(evs: seq<WireEvent>): Option<string>
    requires Mutations(evs)
  {
    if |evs| == 0 then None
    else match LastText(evs[1..])
      case Some(t) => Some(t)
      case None => if evs[0].kind.value == EventType.Edit then Some(evs[0].text.value) else None
  }

  /** The `completed_at` the last `complete` or `uncomplete` of `evs` sets, if any. */
  function LastCompletion(evs: seq<WireEvent>): Option<Option<int>>
    requires Mutations(evs)
  {
    if |evs| == 0 then None
    else match LastCompletion(evs[1..])
      case Some(c) => Some(c)
      case None =>
        if evs[0].kind.value == Complete then Some(Some(evs[0].timestamp.value))
        else if evs[0].kind.value == Uncomplete then Some(None)
        else None
  }

  /**
   Each field ends up with the value its last writer in `evs` gave it, or keeps
   its value when no event writes it.
   */
  lemma {:induction false} LastWriteWins(n: Note, evs: seq<WireEvent>)
    requires Mutations(evs)
    ensures ApplyAll(n, evs) ==
      n.(text := LastText(evs).GetOr(n.text), completed_at := LastCompletion(evs).GetOr(n.completed_at))
    decreases |evs|
  {
    if |evs| > 0 {
      LastWriteWins(Change(n, evs[0]), evs[1..]);
    }
  }

  /** Applying the same events a second time changes nothing. */
  lemma ApplyAllTwice(n: Note, evs: seq<WireEvent>)
    requires Mutations(evs)
    ensures ApplyAll(ApplyAll(n, evs), evs) == ApplyAll(n, evs)
  {
    LastWriteWins(n, evs);
    LastWriteWins(ApplyAll(n, evs), evs);
  }

  /** The events never write `updated_at`; the single write after the sequence does. */
  lemma {:induction false} ApplyAllIgnoresUpdated(n: Note, evs: seq<WireEvent>, u: Option<int>)
    requires Mutations(evs)
    ensures ApplyAll(n.(updated_at := u), evs) == ApplyAll(n, evs).(updated_at := u)
    decreases |evs|
  {
    if |evs| > 0 {
      ApplyAllIgnoresUpdated(Change(n, evs[0]), evs[1..], u);
    }
  }

  /** Applying `p + s` is applying `p`, then `s`. */
  lemma {:induction false} ApplyAllAppend(n: Note, p: seq<WireEvent>, s: seq<WireEvent>)
    requires Mutations(p) && Mutations(s)
    ensures Mutations(p + s)
    ensures ApplyAll(n, p + s) == ApplyAll(ApplyAll(n, p), s)
    decreases |p|
  {
    if |p| == 0 {
      assert p + s == s;
    } else {
      assert (p + s)[0] == p[0] && (p + s)[1..] == p[1..] + s;
      ApplyAllAppend(Change(n, p[0]), p[1..], s);
    }
  }

  /** The high-water mark is -1 or a timestamp the staleness rule admitted. */
  lemma {:induction false} HighWaterAdmitted(u: Option<int>, evs: seq<WireEvent>)
    requires Mutations(evs)
    ensures HighWater(u, evs) == -1 || !Stale(u, HighWater(u, evs))
    decreases |evs|
  {
    if |evs| > 0 {
      HighWaterAdmitted(u, evs[1..]);
    }
  }

  /**
   Judged against a stored `updated_at` of `h` no lower than every admitted
   timestamp, only events stamped exactly `h` are admitted again, so the
   high-water mark is `h` itself when one of them was admitted before and -1 when not.
   */
  lemma {:induction false} HighWaterAgain(u: Option<int>, h: int, evs: seq<WireEvent>)
    requires Mutations(evs)
    requires HighWater(u, evs) <= h && !Stale(u, h)
    ensures HighWater(Some(h), evs) == (if HighWater(u, evs) == h then h else -1)
    decreases |evs|
  {
    if |evs| > 0 {
      HighWaterAgain(u, h, evs[1..]);
    }
  }

  /** Every event stamped no earlier than `h` is admitted against `Some(h)`. */
  lemma {:induction false} NoneStale(h: int, evs: seq<WireEvent>)
    requires Mutations(evs)
    requires forall i :: 0 <= i < |evs| ==> evs[i].timestamp.value >= h
    ensures Admitted(Some(h), evs) == evs
    decreases |evs|
  {
    if |evs| > 0 {
      NoneStale(h, evs[1..]);
      assert [evs[0]] + evs[1..] == evs;
    }
  }

  /**
   In an ordered sequence, the events admitted against a later `updated_at` are
   the tail of those admitted against an earlier one.
   */
  lemma {:induction false} AdmittedTail(u: Option<int>, h: int, evs: seq<WireEvent>) returns (p: seq<WireEvent>)
    requires Mutations(evs) && Ordered(evs) && !Stale(u, h)
    ensures Mutations(p)
    ensures Admitted(u, evs) == p + Admitted(Some(h), evs)
    decreases |evs|
  {
    if |evs| == 0 {
      p := [];
    } else {
      var rest := evs[1..];
      OrderedRest(evs);
      if evs[0].timestamp.value >= h {
        NoneStale(h, rest);
        AllAdmitted(u, h, rest);
        p := [];
      } else {
        var p' := AdmittedTail(u, h, rest);
        p := StaleHead(u, h, evs, p');
      }
    }
  }

  /** The rest of an ordered sequence is ordered and stamped no earlier than its head. */
  lemma OrderedRest(evs: seq<WireEvent>)
    requires Mutations(evs) && Ordered(evs) && |evs| > 0
    ensures Mutations(evs[1..]) && Ordered(evs[1..])
    ensures forall i :: 0 <= i < |evs[1..]| ==> evs[1..][i].timestamp.value >= evs[0].timestamp.value
  {
    assert forall i :: 0 <= i < |evs| - 1 ==> evs[1..][i] == evs[i + 1];
  }

  /** The step of `AdmittedTail` where the head is older than `h`. */
  lemma StaleHead(u: Option<int>, h: int, evs: seq<WireEvent>, p': seq<WireEvent>) returns (p: seq<WireEvent>)
    requires Mutations(evs) && |evs| > 0 && evs[0].timestamp.value < h && Mutations(p')
    requires Admitted(u, evs[1..]) == p' + Admitted(Some(h), evs[1..])
    ensures Mutations(p)
    ensures Admitted(u, evs) == p + Admitted(Some(h), evs)
  {
    var again := Admitted(Some(h), evs[1..]);
    assert Admitted(Some(h), evs) == [] + again;
    if Stale(u, evs[0].timestamp.value) {
      assert Admitted(u, evs) == [] + (p' + again);
      p := p';
    } else {
      assert Admitted(u, evs) == [evs[0]] + (p' + again);
      p := [evs[0]] + p';
      assert [evs[0]] + (p' + again) == p + again;
      MutationsAppend([evs[0]], p');
    }
  }

  lemma MutationsAppend(a: seq<WireEvent>, b: seq<WireEvent>)
    requires Mutations(a) && Mutations(b)
    ensures Mutations(a + b)
  {
    assert forall i :: 0 <= i < |a + b| ==> (a + b)[i] == if i < |a| then a[i] else b[i - |a|];
  }

  /** When every event is stamped no earlier than an admitted `h`, all are admitted. */
  lemma {:induction false} AllAdmitted(u: Option<int>, h: int, evs: seq<WireEvent>)
    requires Mutations(evs) && !Stale(u, h)
    requires forall i :: 0 <= i < |evs| ==> evs[i].timestamp.value >= h
    ensures Admitted(u, evs) == evs
    decreases |evs|
  {
    if |evs| > 0 {
      AllAdmitted(u, h, evs[1..]);
      assert [evs[0]] + evs[1..] == evs;
    }
  }

  /** A one-entry batch answers with what its one sequence left. */
  lemma OneSequence(db: Db, id: int, evs: seq<WireEvent>)
    requires RunSequence(Start(db, map[], []), id, evs).Finished?
    ensures var st := RunSequence(Start(db, map[], []), id, evs).st;
      SaveEvents(db, [(id, evs)]) == Outcome(Persist(st), Saved(st.ids, st.errors))
  {
    var st := RunSequence(Start(db, map[], []), id, evs).st;
    var batch := [(id, evs)];
    assert batch[0] == (id, evs) && batch[1..] == [];
    assert RunSequence(Start(db, map[], []), id, evs) == Finished(st);
    assert SaveFrom(Persist(st), [], st.ids, st.errors) == Outcome(Persist(st), Saved(st.ids, st.errors));
  }

  /** The request as a one-entry batch: its outcome is the one sequence's write. */
  lemma SingleEntry(db: Db, id: int, evs: seq<WireEvent>)
    requires id in db.notes && Mutations(evs)
    ensures SaveEvents(db, [(id, evs)]) == Outcome(Written(db, id, evs), Saved(map[], []))
  {
    ChangedRun(db, id, evs, [], map[], []);
    assert evs + [] == evs;
    OneSequence(db, id, evs);
  }

  /**
   Sending again a request of ordered `complete`/`uncomplete`/`edit` events for
   an existing note, after it was applied, leaves the table as the first
   application left it, and both replies are 200 with nothing in them.
   */
  lemma OrderedReplayChangesNothing(db: Db, id: int, evs: seq<WireEvent>)
    requires id in db.notes && Mutations(evs) && Ordered(evs)
    ensures var once := SaveEvents(db, [(id, evs)]);
      && once.response == Saved(map[], [])
      && SaveEvents(once.db, [(id, evs)]) == once
  {
    var n := db.notes[id];
    var u := n.updated_at;
    var h := HighWater(u, evs);
    SingleEntry(db, id, evs);
    HighWaterAdmitted(u, evs);
    if h >= 0 {
      var p := AdmittedTail(u, h, evs);
      var again := Admitted(Some(h), evs);
      var y := ApplyAll(n, p);
      var row := ApplyAll(y, again).(updated_at := Some(h));
      ApplyAllAppend(n, p, again);
      var db1 := db.(notes := db.notes[id := row]);
      assert SaveEvents(db, [(id, evs)]).db == db1;
      SingleEntry(db1, id, evs);
      HighWaterAgain(u, h, evs);
      assert HighWater(Some(h), evs) == h;
      ApplyAllIgnoresUpdated(ApplyAll(y, again), again, Some(h));
      ApplyAllTwice(y, again);
      assert ApplyAll(row, again).(updated_at := Some(h)) == row;
      assert db1.notes[id := row] == db1.notes;
    }
  }

  /**
   Without the ordering the promise fails: the staleness rule admits equal
   timestamps and judges each event against the stored `updated_at`, so
   `complete@5, uncomplete@3` leaves the note pending the first time and
   completed the second.
   */
  lemma ReplayIsNotIdempotent()
    ensures var db := Db(map[1 := Note("a", 1, Some(1), None)], 2);
      var batch := [(1, [WireEvent(Some(Complete), Some(5), None), WireEvent(Some(Uncomplete), Some(3), None)])];
      var once := SaveEvents(db, batch).db;
      && once.notes[1].completed_at == None
      && SaveEvents(once, batch).db.notes[1].completed_at == Some(5)
  {
    var db := Db(map[1 := Note("a", 1, Some(1), None)], 2);
    var evs := [WireEvent(Some(Complete), Some(5), None), WireEvent(Some(Uncomplete), Some(3), None)];
    var batch := [(1, evs)];
    assert batch == [(1, evs)] + [];
    var once := Db(map[1 := Note("a", 1, Some(5), None)], 2);
    var twice := Db(map[1 := Note("a", 1, Some(5), Some(5))], 2);
    RunTwo(Start(db, map[], []), 1, evs);
    Unfold(db, 1, evs, [], map[], []);
    assert SaveEvents(db, batch).db == once;
    RunTwo(Start(once, map[], []), 1, evs);
    Unfold(once, 1, evs, [], map[], []);
    assert SaveEvents(once, batch).db == twice;
  }

  /**
   A `create` sent again after it was applied is inserted again: two identical
   rows under consecutive ids, and a different id in each answer.
   */
  lemma ReplayedCreateDuplicates(db: Db, id: int, text: string, ts: int)
    requires ts >= 1 && Filled(Some(text))
    ensures var batch := [(id, [WireEvent(Some(Create), Some(ts), Some(text))])];
      var once := SaveEvents(db, batch);
      var twice := SaveEvents(once.db, batch);
      && once.response == Saved(map[id := db.nextId], [])
      && twice.response == Saved(map[id := db.nextId + 1], [])
      && twice.db == Db(db.notes[db.nextId := Note(text, ts, Some(ts), None)]
                                [db.nextId + 1 := Note(text, ts, Some(ts), None)], db.nextId + 2)
  {
    var batch := [(id, [WireEvent(Some(Create), Some(ts), Some(text))])];
    assert batch == batch + [];
    CreateInsertsNote(db, id, text, ts, [], map[], []);
    var db1 := Db(db.notes[db.nextId := Note(text, ts, Some(ts), None)], db.nextId + 1);
    CreateInsertsNote(db1, id, text, ts, [], map[], []);
  }
}

=== FILE: notes_controller_rules.dfy ===
/**
 The per-id rules of `saveEvents`, each stated as what one id's sequence does
 to the table and the accumulators before the loop moves on to the next id.
 */
module TodoNotesControllerRules {
  import opened Wrappers
  import opened TodoEvent
  import opened TodoNotesController

  lemma Unfold(db: Db, id: int, evs: seq<WireEvent>, rest: Batch, ids: map<int, int>, errors: seq<Failure>)
    ensures var run := RunSequence(Start(db, ids, errors), id, evs);
      run.Aborted? ==> SaveFrom(db, [(id, evs)] + rest, ids, errors) == Outcome(run.db, UnknownEventType)
    ensures var run := RunSequence(Start(db, ids, errors), id, evs);
      run.Finished? ==> SaveFrom(db, [(id, evs)] + rest, ids, errors) == SaveFrom(Persist(run.st), rest, run.st.ids, run.st.errors)
  {
    assert ([(id, evs)] + rest)[0] == (id, evs);
    assert ([(id, evs)] + rest)[1..] == rest;
  }

  /** At any point of a sequence, a missing or non-positive timestamp records an
      error for the id and abandons the rest of its events, whatever their type. */
  lemma InvalidTimestampAbandonsId(st: Pass, id: int, e: WireEvent, post: seq<WireEvent>)
    requires !ValidTimestamp(e.timestamp)
    ensures RunSequence(st, id, [e] + post) == Finished(Fail(st, id, InvalidTimestamp))
  {
    assert ([e] + post)[0] == e;
  }

  /** A `create` with text makes a row under the next id with `created_at = updated_at`
      = the event's timestamp and no `completed_at`, and maps the submitted id to it. */
  lemma CreateInsertsNote(db: Db, id: int, text: string, ts: int, rest: Batch, ids: map<int, int>, errors: seq<Failure>)
    requires ts >= 1 && Filled(Some(text))
    ensures SaveFrom(db, [(id, [WireEvent(Some(Create), Some(ts), Some(text))])] + rest, ids, errors)
         == SaveFrom(Db(db.notes[db.nextId := Note(text, ts, Some(ts), None)], db.nextId + 1),
                     rest, ids[id := db.nextId], errors)
  {
    var evs := [WireEvent(Some(Create), Some(ts), Some(text))];
    var note := Note(text, ts, Some(ts), None);
    var st0 := Start(db, ids, errors);
    var st1 := st0.(db := Db(db.notes[db.nextId := note], db.nextId + 1),
                    todo := Some(Working(db.nextId, note)), ids := ids[id := db.nextId], high := ts);
    assert ApplyEvent(st0, id, evs[0]) == Next(st1);
    assert RunSequence(st0, id, evs) == Finished(st1) by {
      assert evs[1..] == [];
    }
    assert note.(updated_at := Some(ts)) == note;
    assert Persist(st1) == st1.db;
    Unfold(db, id, evs, rest, ids, errors);
  }

  /** At any point of a sequence, a `create` without usable text records an error
      and abandons the rest of the id's events. */
  lemma CreateNeedsText(st: Pass, id: int, e: WireEvent, post: seq<WireEvent>)
    requires e.kind == Some(Create) && ValidTimestamp(e.timestamp) && !Filled(e.text)
    ensures RunSequence(st, id, [e] + post) == Finished(Fail(st, id, InvalidText))
  {
    assert ([e] + post)[0] == e;
  }

  /** `complete`, `uncomplete`, `edit` or `delete` for an id with no row records
      `Not found` and abandons the id. */
  lemma MissingNoteAbandonsId(db: Db, id: int, evs: seq<WireEvent>, rest: Batch, ids: map<int, int>, errors: seq<Failure>)
    requires id !in db.notes
    requires |evs| > 0 && evs[0].kind.Some? && evs[0].kind.value != Create
    requires ValidTimestamp(evs[0].timestamp)
    ensures SaveFrom(db, [(id, evs)] + rest, ids, errors)
         == SaveFrom(db, rest, ids, errors + [Failure(id, NotFound)])
  {
    Unfold(db, id, evs, rest, ids, errors);
  }

  /** Events on an existing row that are all older than its `updated_at`. Their text
      does not matter: an `edit`'s text is checked only after the staleness rule. */
  predicate AllStale(note: Note, evs: seq<WireEvent>) {
    forall i :: 0 <= i < |evs| ==>
      && evs[i].kind.Some? && evs[i].kind.value != Create
      && ValidTimestamp(evs[i].timestamp)
      && Stale(note.updated_at, evs[i].timestamp.value)
  }

  lemma {:induction false} StaleRun(st: Pass, id: int, evs: seq<WireEvent>)
    requires id in st.db.notes && st.high < 0
    requires st.todo.None? || st.todo == Some(Working(id, st.db.notes[id]))
    requires AllStale(st.db.notes[id], evs)
    ensures RunSequence(st, id, evs).Finished?
    ensures var st' := RunSequence(st, id, evs).st;
      && st'.db == st.db && st'.high == st.high && st'.ids == st.ids && st'.errors == st.errors
      && (st'.todo.None? || st'.todo == Some(Working(id, st.db.notes[id])))
    decreases |evs|
  {
    if |evs| > 0 {
      var st1 := st.(todo := Some(Working(id, st.db.notes[id])));
      assert ApplyEvent(st, id, evs[0]) == Next(st1);
      assert AllStale(st1.db.notes[id], evs[1..]) by {
        assert forall i :: 0 <= i < |evs| - 1 ==> evs[1..][i] == evs[i + 1];
      }
      StaleRun(st1, id, evs[1..]);
    }
  }

  /** A sequence of only stale events changes nothing and reports nothing. */
  lemma StaleEventsChangeNothing(db: Db, id: int, evs: seq<WireEvent>, rest: Batch, ids: map<int, int>, errors: seq<Failure>)
    requires id in db.notes
    requires AllStale(db.notes[id], evs)
    ensures SaveFrom(db, [(id, evs)] + rest, ids, errors) == SaveFrom(db, rest, ids, errors)
  {
    Unfold(db, id, evs, rest, ids, errors);
    StaleRun(Start(db, ids, errors), id, evs);
  }

  /**
   At any point of a sequence, a `delete` that is not stale against the note the
   sequence works on (the row looked up, or the one a `create` just inserted)
   removes that row and ends the id: later events are ignored, nothing is
   recorded, and no write follows.
   */
  lemma DeleteRemovesRow(st: Pass, id: int, ts: int, post: seq<WireEvent>)
    requires ts >= 1 && Resolve(st, id).Some? && !Stale(Resolve(st, id).value.note.updated_at, ts)
    ensures var run := RunSequence(st, id, [WireEvent(Some(EventType.Delete), Some(ts), None)] + post);
      && run.Finished?
      && run.st.ids == st.ids && run.st.errors == st.errors
      && Persist(run.st) == st.db.(notes := st.db.notes - {Resolve(st, id).value.key})
  {
    assert ([WireEvent(Some(EventType.Delete), Some(ts), None)] + post)[0] == WireEvent(Some(EventType.Delete), Some(ts), None);
  }

  /**
   Staleness is judged against `updated_at` as it was before the request: an
   `edit` at `t1` followed by a `complete` at an earlier `t2` applies both, and
   the row's `updated_at` becomes the larger timestamp.
   */
  lemma LaterListedOlderEventApplies(db: Db, id: int, text: string, t1: int, t2: int, rest: Batch, ids: map<int, int>, errors: seq<Failure>)
    requires id in db.notes && Filled(Some(text))
    requires 1 <= t2 <= t1
    requires !Stale(db.notes[id].updated_at, t2)
    ensures SaveFrom(db, [(id, [WireEvent(Some(EventType.Edit), Some(t1), Some(text)),
                                WireEvent(Some(Complete), Some(t2), None)])] + rest, ids, errors)
         == SaveFrom(db.(notes := db.notes[id := db.notes[id].(text := text, completed_at := Some(t2), updated_at := Some(t1))]),
                     rest, ids, errors)
  {
    var evs := [WireEvent(Some(EventType.Edit), Some(t1), Some(text)), WireEvent(Some(Complete), Some(t2), None)];
    var n := db.notes[id];
    var st0 := Start(db, ids, errors);
    var st1 := st0.(todo := Some(Working(id, n.(text := text))), high := t1);
    var st2 := st1.(todo := Some(Working(id, n.(text := text, completed_at := Some(t2)))));
    assert ApplyEvent(st0, id, evs[0]) == Next(st1);
    assert ApplyEvent(st1, id, evs[1]) == Next(st2);
    var tail := evs[1..];
    assert tail == [evs[1]] && tail[1..] == [];
    assert RunSequence(st1, id, tail) == RunSequence(st2, id, []);
    assert RunSequence(st0, id, evs) == Finished(st2);
    Unfold(db, id, evs, rest, ids, errors);
  }

  /** At any point of a sequence, an event with a type none of the five ends the
      request with a 400 at once, with the table as it stands: the rest of the
      sequence, its in-memory changes and every later id are dropped. */
  lemma UnknownTypeAborts(st: Pass, id: int, e: WireEvent, post: seq<WireEvent>)
    requires e.kind.None? && ValidTimestamp(e.timestamp)
    ensures RunSequence(st, id, [e] + post) == Aborted(st.db)
  {
    assert ([e] + post)[0] == e;
  }

  /** Processing is id by id with nothing rolled back: a request is the first part
      of its ids followed by the rest, starting from the table the first part left. */
  lemma {:induction false} SaveSplit(db: Db, b1: Batch, b2: Batch, ids: map<int, int>, errors: seq<Failure>)
    ensures var first := SaveFrom(db, b1, ids, errors);
      first.response.Saved? ==>
        SaveFrom(db, b1 + b2, ids, errors) == SaveFrom(first.db, b2, first.response.ids, first.response.errors)
    ensures var first := SaveFrom(db, b1, ids, errors);
      first.response.UnknownEventType? ==> SaveFrom(db, b1 + b2, ids, errors) == first
    decreases |b1|
  {
    if |b1| == 0 {
      assert b1 + b2 == b2;
    } else {
      assert (b1 + b2)[0] == b1[0];
      assert (b1 + b2)[1..] == b1[1..] + b2;
      match RunSequence(Start(db, ids, errors), b1[0].0, b1[0].1)
      case Aborted(db') =>
      case Finished(st) =>
        SaveSplit(Persist(st), b1[1..], b2, st.ids, st.errors);
    }
  }

  lemma {:induction false} KnownTypesFinish(st: Pass, id: int, evs: seq<WireEvent>)
    requires KnownKinds(evs)
    ensures RunSequence(st, id, evs).Finished?
    decreases |evs|
  {
    if |evs| > 0 {
      assert KnownKinds(evs[1..]) by {
        assert forall i :: 0 <= i < |evs| - 1 ==> evs[1..][i] == evs[i + 1];
      }
      match ApplyEvent(st, id, evs[0])
      case Next(st') => KnownTypesFinish(st', id, evs[1..]);
      case Halt(_) =>
      case Abort(_) =>
    }
  }

  /** A request whose events all have known types is answered 200, with partial
      failures reported per id. */
  lemma {:induction false} KnownTypesNeverRejected(db: Db, batch: Batch, ids: map<int, int>, errors: seq<Failure>)
    requires forall i :: 0 <= i < |batch| ==> KnownKinds(batch[i].1)
    ensures SaveFrom(db, batch, ids, errors).response.Saved?
    decreases |batch|
  {
    if |batch| > 0 {
      KnownTypesFinish(Start(db, ids, errors), batch[0].0, batch[0].1);
      var st := RunSequence(Start(db, ids, errors), batch[0].0, batch[0].1).st;
      KnownTypesNeverRejected(Persist(st), batch[1..], st.ids, st.errors);
    }
  }

  /** Events that change a row in place, each with a usable timestamp (and text, for `edit`). */
  predicate Mutations(evs: seq<WireEvent>) {
    forall i :: 0 <= i < |evs| ==> Mutation(evs[i])
  }

  predicate Mutation(e: WireEvent) {
    && e.kind.Some? && e.kind.value in {Complete, Uncomplete, EventType.Edit}
    && ValidTimestamp(e.timestamp)
    && (e.kind.value == EventType.Edit ==> Filled(e.text))
  }

  /** The largest timestamp among the events the staleness rule admits against
      `updated_at`, or -1 when it admits none. */
  function HighWater(updated_at: Option<int>, evs: seq<WireEvent>): (r: int)
    requires Mutations(evs)
    ensures r >= -1
  {
    if |evs| == 0 then -1
    else
      var ts := evs[0].timestamp.value;
      var rest := HighWater(updated_at, evs[1..]);
      if !Stale(updated_at, ts) && ts > rest then ts else rest
  }

  /** The events the staleness rule admits against `updated_at`, in order. */
  function Admitted(updated_at: Option<int>, evs: seq<WireEvent>): (r: seq<WireEvent>)
    requires Mutations(evs)
    ensures Mutations(r) && |r| <= |evs|
  {
    if |evs| == 0 then []
    else (if Stale(updated_at, evs[0].timestamp.value) then [] else [evs[0]]) + Admitted(updated_at, evs[1..])
  }

  /** What one admitted `complete`/`uncomplete`/`edit` does to the in-memory copy. */
  function Change(n: Note, e: WireEvent): Note
    requires Mutation(e)
  {
    if e.kind.value == Complete then n.(completed_at := Some(e.timestamp.value))
    else if e.kind.value == Uncomplete then n.(completed_at := None)
    else n.(text := e.text.value)
  }

  /** The in-memory copy after `evs`, applied in order. */
  function ApplyAll(n: Note, evs: seq<WireEvent>): (r: Note)
    requires Mutations(evs)
    ensures r.updated_at == n.updated_at
    decreases |evs|
  {
    if |evs| == 0 then n
    else ApplyAll(Change(n, evs[0]), evs[1..])
  }

  lemma {:induction false} MutationsRun(st: Pass, id: int, evs: seq<WireEvent>, u: Option<int>)
    requires Mutations(evs)
    requires !st.removed && st.high >= -1
    requires st.todo.None? ==> id in st.db.notes && st.db.notes[id].updated_at == u
    requires st.todo.Some? ==> st.todo.value.note.updated_at == u
    ensures RunSequence(st, id, evs).Finished?
    ensures var st' := RunSequence(st, id, evs).st;
      && st'.db == st.db && st'.ids == st.ids && st'.errors == st.errors && !st'.removed
      && st'.high == RaiseHigh(st.high, HighWater(u, evs))
      && (st'.todo.None? ==> st.todo.None? && |evs| == 0)
      && (st'.todo.Some? ==>
            && st'.todo.value.key == (if st.todo.Some? then st.todo.value.key else id)
            && st'.todo.value.note.updated_at == u)
    ensures var st' := RunSequence(st, id, evs).st;
      var w0 := if st.todo.Some? then st.todo.value.note else st.db.notes[id];
      st'.todo.Some? ==> st'.todo.value.note == ApplyAll(w0, Admitted(u, evs))
    decreases |evs|
  {
    if |evs| > 0 {
      assert Mutations(evs[1..]) by {
        assert forall i :: 0 <= i < |evs| - 1 ==> evs[1..][i] == evs[i + 1];
      }
      var rest := Admitted(u, evs[1..]);
      match ApplyEvent(st, id, evs[0])
      case Next(st1) =>
        MutationsRun(st1, id, evs[1..], u);
        var w0 := if st.todo.Some? then st.todo.value.note else st.db.notes[id];
        if Stale(u, evs[0].timestamp.value) {
          assert st1.todo.value.note == w0;
          assert Admitted(u, evs) == rest;
        } else {
          assert st1.todo.value.note == Change(w0, evs[0]);
          var a := [evs[0]] + rest;
          assert Admitted(u, evs) == a;
          assert a[0] == evs[0] && a[1..] == rest;
        }
      case Halt(_) =>
        assert false;
      case Abort(_) =>
        assert false;
    }
  }

  /**
   A sequence of `complete`/`uncomplete`/`edit` on an existing row reports no
   error, touches no other row, and writes the row once: the admitted events
   applied in order, with `updated_at` set to the largest admitted timestamp;
   when every event was stale the row is left as it was.
   */
  lemma UpdatedAtIsHighWater(db: Db, id: int, evs: seq<WireEvent>, ids: map<int, int>, errors: seq<Failure>)
    requires id in db.notes && Mutations(evs)
    ensures RunSequence(Start(db, ids, errors), id, evs).Finished?
    ensures var st := RunSequence(Start(db, ids, errors), id, evs).st;
      && st.errors == errors && st.ids == ids
      && Persist(st).nextId == db.nextId
      && Persist(st).notes.Keys == db.notes.Keys
      && (forall k :: k in db.notes && k != id ==> Persist(st).notes[k] == db.notes[k])
      && Persist(st).notes[id] ==
           (if HighWater(db.notes[id].updated_at, evs) >= 0
            then ApplyAll(db.notes[id], Admitted(db.notes[id].updated_at, evs))
                   .(updated_at := Some(HighWater(db.notes[id].updated_at, evs)))
            else db.notes[id])
  {
    MutationsRun(Start(db, ids, errors), id, evs, db.notes[id].updated_at);
  }

  /** The loop state after `complete`/`uncomplete`/`edit` events at the head of the
      sequence of an existing row: the row changed in memory, and the high-water mark. */
  function Changed(db: Db, id: int, pre: seq<WireEvent>, ids: map<int, int>, errors: seq<Failure>): Pass
    requires id in db.notes && Mutations(pre)
  {
    var n := db.notes[id];
    Pass(db, if |pre| == 0 then None else Some(Working(id, ApplyAll(n, Admitted(n.updated_at, pre)))),
         false, HighWater(n.updated_at, pre), ids, errors)
  }

  /** The table once those events have been written back to the row. */
  function Written(db: Db, id: int, pre: seq<WireEvent>): Db
    requires id in db.notes && Mutations(pre)
  {
    var n := db.notes[id];
    var h := HighWater(n.updated_at, pre);
    if h >= 0 then db.(notes := db.notes[id := ApplyAll(n, Admitted(n.updated_at, pre)).(updated_at := Some(h))])
    else db
  }

  lemma {:induction false} RunPrefix(st: Pass, id: int, pre: seq<WireEvent>, tail: seq<WireEvent>, u: Option<int>)
    requires Mutations(pre)
    requires !st.removed && st.high >= -1
    requires st.todo.None? ==> id in st.db.notes && st.db.notes[id].updated_at == u
    requires st.todo.Some? ==> st.todo.value.note.updated_at == u
    requires RunSequence(st, id, pre).Finished?
    ensures RunSequence(st, id, pre + tail) == RunSequence(RunSequence(st, id, pre).st, id, tail)
    decreases |pre|
  {
    if |pre| == 0 {
      assert pre + tail == tail;
    } else {
      assert (pre + tail)[0] == pre[0] && (pre + tail)[1..] == pre[1..] + tail;
      assert Mutations(pre[1..]) by {
        assert forall i :: 0 <= i < |pre| - 1 ==> pre[1..][i] == pre[i + 1];
      }
      match ApplyEvent(st, id, pre[0])
      case Next(st1) =>
        RunPrefix(st1, id, pre[1..], tail, u);
      case Halt(_) =>
        assert false;
      case Abort(_) =>
        assert false;
    }
  }

  /** A sequence that opens with `complete`/`uncomplete`/`edit` events on an existing
      row goes on from `Changed`, and writing that state back gives `Written`. */
  lemma ChangedRun(db: Db, id: int, pre: seq<WireEvent>, tail: seq<WireEvent>, ids: map<int, int>, errors: seq<Failure>)
    requires id in db.notes && Mutations(pre)
    ensures RunSequence(Start(db, ids, errors), id, pre + tail) == RunSequence(Changed(db, id, pre, ids, errors), id, tail)
    ensures Persist(Changed(db, id, pre, ids, errors)) == Written(db, id, pre)
  {
    var u := db.notes[id].updated_at;
    MutationsRun(Start(db, ids, errors), id, pre, u);
    RunPrefix(Start(db, ids, errors), id, pre, tail, u);
    assert RunSequence(Start(db, ids, errors), id, pre).st == Changed(db, id, pre, ids, errors);
  }

  /** The events that draw a per-id error `p` from a row whose `updated_at` is `u`:
      a bad timestamp, a `create` without text, or an `edit` without text that is not stale. */
  predicate Rejects(u: Option<int>, e: WireEvent, p: Problem) {
    if !ValidTimestamp(e.timestamp) then p == InvalidTimestamp
    else
      && e.kind.Some? && !Filled(e.text) && p == InvalidText
      && (e.kind.value == Create || (e.kind.value == EventType.Edit && !Stale(u, e.timestamp.value)))
  }

  /**
   Changes applied before an error in the same sequence are still written, with
   `updated_at`, and the error is recorded once: the `complete`/`uncomplete`/`edit`
   events before the rejected one are written as `Written` says, the events after
   it are ignored, and the next id goes on from there.
   */
  lemma EarlierChangesSurviveError(db: Db, id: int, pre: seq<WireEvent>, e: WireEvent, p: Problem, post: seq<WireEvent>,
                                   rest: Batch, ids: map<int, int>, errors: seq<Failure>)
    requires id in db.notes && Mutations(pre) && Rejects(db.notes[id].updated_at, e, p)
    ensures SaveFrom(db, [(id, pre + ([e] + post))] + rest, ids, errors)
         == SaveFrom(Written(db, id, pre), rest, ids, errors + [Failure(id, p)])
  {
    Unfold(db, id, pre + ([e] + post), rest, ids, errors);
    ChangedRun(db, id, pre, [e] + post, ids, errors);
    var st := Changed(db, id, pre, ids, errors);
    assert ([e] + post)[0] == e;
    var st' := if st.todo.None? && ValidTimestamp(e.timestamp) && e.kind != Some(Create)
               then st.(todo := Some(Working(id, db.notes[id]))) else st;
    assert ApplyEvent(st, id, e) == Halt(Fail(st', id, p));
    assert Persist(Fail(st', id, p)) == Written(db, id, pre);
  }

  /**
   A `delete` that is not stale, after `complete`/`uncomplete`/`edit` events on
   the same row, removes the row: the changes made in memory are dropped, no
   write follows, and nothing is recorded.
   */
  lemma DeleteDiscardsChanges(db: Db, id: int, pre: seq<WireEvent>, ts: int, post: seq<WireEvent>,
                              rest: Batch, ids: map<int, int>, errors: seq<Failure>)
    requires id in db.notes && Mutations(pre) && ts >= 1 && !Stale(db.notes[id].updated_at, ts)
    ensures SaveFrom(db, [(id, pre + ([WireEvent(Some(EventType.Delete), Some(ts), None)] + post))] + rest, ids, errors)
         == SaveFrom(db.(notes := db.notes - {id}), rest, ids, errors)
  {
    var tail := [WireEvent(Some(EventType.Delete), Some(ts), None)] + post;
    Unfold(db, id, pre + tail, rest, ids, errors);
    ChangedRun(db, id, pre, tail, ids, errors);
    DeleteRemovesRow(Changed(db, id, pre, ids, errors), id, ts, post);
  }

  /** An unknown type after `complete`/`uncomplete`/`edit` events on a row: the 400
      leaves the row as it was, since the write would have come after the loop. */
  lemma UnknownTypeDropsChanges(db: Db, id: int, pre: seq<WireEvent>, e: WireEvent, post: seq<WireEvent>,
                                rest: Batch, ids: map<int, int>, errors: seq<Failure>)
    requires id in db.notes && Mutations(pre) && e.kind.None? && ValidTimestamp(e.timestamp)
    ensures SaveFrom(db, [(id, pre + ([e] + post))] + rest, ids, errors) == Outcome(db, UnknownEventType)
  {
    Unfold(db, id, pre + ([e] + post), rest, ids, errors);
    ChangedRun(db, id, pre, [e] + post, ids, errors);
    UnknownTypeAborts(Changed(db, id, pre, ids, errors), id, e, post);
  }

  /**
   A `create` followed by `complete`/`uncomplete`/`edit` events in the same
   sequence, as a client queues them when a note is changed before its first
   push succeeds: the row is inserted under the next id, the later events are
   applied to it unless stale against the create's timestamp, and the row is
   written once more with the largest applied timestamp as `updated_at`.
   */
  lemma CreateThenChanges(db: Db, id: int, text: string, t: int, pre: seq<WireEvent>,
                          rest: Batch, ids: map<int, int>, errors: seq<Failure>)
    requires t >= 1 && Filled(Some(text)) && Mutations(pre)
    ensures SaveFrom(db, [(id, [WireEvent(Some(Create), Some(t), Some(text))] + pre)] + rest, ids, errors)
         == SaveFrom(Db(db.notes[db.nextId := ApplyAll(Note(text, t, Some(t), None), Admitted(Some(t), pre))
                                                 .(updated_at := Some(RaiseHigh(t, HighWater(Some(t), pre))))],
                        db.nextId + 1),
                     rest, ids[id := db.nextId], errors)
  {
    var c := WireEvent(Some(Create), Some(t), Some(text));
    var evs := [c] + pre;
    var note := Note(text, t, Some(t), None);
    var st0 := Start(db, ids, errors);
    var st1 := st0.(db := Db(db.notes[db.nextId := note], db.nextId + 1),
                    todo := Some(Working(db.nextId, note)), ids := ids[id := db.nextId], high := t);
    assert evs[0] == c && evs[1..] == pre;
    assert ApplyEvent(st0, id, c) == Next(st1);
    assert RunSequence(st0, id, evs) == RunSequence(st1, id, pre);
    MutationsRun(st1, id, pre, Some(t));
    var st2 := RunSequence(st1, id, pre).st;
    var written := ApplyAll(note, Admitted(Some(t), pre)).(updated_at := Some(RaiseHigh(t, HighWater(Some(t), pre))));
    assert Persist(st2) == Db(db.notes[db.nextId := written], db.nextId + 1) by {
      assert st2.todo.value == Working(db.nextId, ApplyAll(note, Admitted(Some(t), pre)));
      assert st1.db.notes[db.nextId := written] == db.notes[db.nextId := written];
    }
    Unfold(db, id, evs, rest, ids, errors);
  }

  /** An unknown type after a `create` in the same sequence: the 400 does not roll
      back the insert, so the new row stays while the client is told nothing of it. */
  lemma UnknownTypeAfterCreateKeepsRow(db: Db, id: int, text: string, ts: int, e: WireEvent, post: seq<WireEvent>,
                                       rest: Batch, ids: map<int, int>, errors: seq<Failure>)
    requires ts >= 1 && Filled(Some(text)) && e.kind.None? && ValidTimestamp(e.timestamp)
    ensures SaveFrom(db, [(id, [WireEvent(Some(Create), Some(ts), Some(text)), e] + post)] + rest, ids, errors)
         == Outcome(Db(db.notes[db.nextId := Note(text, ts, Some(ts), None)], db.nextId + 1), UnknownEventType)
  {
    var c := WireEvent(Some(Create), Some(ts), Some(text));
    var evs := [c, e] + post;
    var st0 := Start(db, ids, errors);
    var note := Note(text, ts, Some(ts), None);
    var st1 := st0.(db := Db(db.notes[db.nextId := note], db.nextId + 1),
                    todo := Some(Working(db.nextId, note)), ids := ids[id := db.nextId], high := ts);
    assert evs[0] == c && evs[1..] == [e] + post;
    assert ApplyEvent(st0, id, c) == Next(st1);
    UnknownTypeAborts(st1, id, e, post);
    Unfold(db, id, evs, rest, ids, errors);
  }

  lemma RunTwo(st: Pass, id: int, evs: seq<WireEvent>)
    requires |evs| == 2
    ensures RunSequence(st, id, evs) ==
      match ApplyEvent(st, id, evs[0])
      case Next(st1) => (match ApplyEvent(st1, id, evs[1])
                         case Next(st2) => Finished(st2)
                         case Halt(st2) => Finished(st2)
                         case Abort(db) => Aborted(db))
      case Halt(st1) => Finished(st1)
      case Abort(db) => Aborted(db)
  {
    var tail := evs[1..];
    assert tail[0] == evs[1] && tail[1..] == [];
    match ApplyEvent(st, id, evs[0])
    case Next(st1) =>
      assert RunSequence(st, id, evs) == RunSequence(st1, id, tail);
      match ApplyEvent(st1, id, evs[1]) {
        case Next(st2) =>
          assert RunSequence(st1, id, tail) == RunSequence(st2, id, []);
        case Halt(st2) =>
        case Abort(db) =>
      }
    case Halt(st1) =>
    case Abort(db) =>
  }

  /** One id with a valid `create` and another whose `delete` names no row: 200, the
      create's mapping in `ids` and exactly one `Not found` in `errors`. */
  lemma CreateBesideMissingDelete(db: Db, created: int, text: string, t1: int, missing: int, t2: int)
    requires WellFormed(db) && t1 >= 1 && t2 >= 1 && Filled(Some(text))
    requires missing !in db.notes && missing != db.nextId
    ensures SaveEvents(db, [(created, [WireEvent(Some(Create), Some(t1), Some(text))]),
                            (missing, [WireEvent(Some(EventType.Delete), Some(t2), None)])]).response
         == Saved(map[created := db.nextId], [Failure(missing, NotFound)])
  {
    var e1 := [WireEvent(Some(Create), Some(t1), Some(text))];
    var e2 := [WireEvent(Some(EventType.Delete), Some(t2), None)];
    var db1 := Db(db.notes[db.nextId := Note(text, t1, Some(t1), None)], db.nextId + 1);
    assert [(created, e1), (missing, e2)] == [(created, e1)] + [(missing, e2)];
    CreateInsertsNote(db, created, text, t1, [(missing, e2)], map[], []);
    assert [(missing, e2)] == [(missing, e2)] + [];
    MissingNoteAbandonsId(db1, missing, e2, [], map[created := db.nextId], []);
  }
}

=== FILE: sync.dfy ===
/**
 The two halves together: the client's queue as the body of
 `POST /todonotes/events`, the server's answer fed back into `pushEvents`.
 */
module Sync {
  import opened Wrappers
  import opened TodoEvent
  import TodoService
  import opened TodoServiceProperties
  import opened TodoNotesController
  import opened TodoNotesControllerProperties
  import opened TodoNotesControllerRules

  /** An event as the server decodes it from the client's JSON. */
  function ToWire(e: Event): (w: WireEvent)
    ensures w.kind == Some(e.kind) && w.timestamp == Some(e.timestamp) && w.text == e.text
  {
    WireEvent(Some(e.kind), Some(e.timestamp), e.text)
  }

  function EncodeQueue(q: seq<Event>): (r: seq<WireEvent>)
    ensures |r| == |q| && forall i :: 0 <= i < |q| ==> r[i] == ToWire(q[i])
  {
    seq(|q|, i requires 0 <= i < |q| => ToWire(q[i]))
  }

  /** `batch` is the queue `events` serialised: each id once, with its events in order. */
  predicate Encodes(batch: Batch, events: Events) {
    && (forall i, j :: 0 <= i < j < |batch| ==> batch[i].0 != batch[j].0)
    && (forall i :: 0 <= i < |batch| ==> batch[i].0 in events && batch[i].1 == EncodeQueue(events[batch[i].0]))
    && (forall k :: k in events ==> exists i :: 0 <= i < |batch| && batch[i].0 == k)
  }

  /** Whatever the client queued, the server answers 200: the client never sends an
      unknown event type, so errors are only ever per id. */
  lemma ClientBatchNeverRejected(db: Db, batch: Batch, events: Events)
    requires Encodes(batch, events)
    ensures SaveEvents(db, batch).response.Saved?
  {
    forall i | 0 <= i < |batch|
      ensures KnownKinds(batch[i].1)
    {
      assert batch[i].0 in events;
    }
    KnownTypesNeverRejected(db, batch, map[], []);
  }

  /**
   A push the server accepts keeps the client invariant: the ids the server
   answers with are new positive row ids, one per created note, so remapped notes
   collide neither with each other, nor with provisional ids still to be handed
   out, nor with server ids the client already caches (which the same table
   handed out earlier).
   */
  lemma ServerReplyKeepsClientInv(s: TodoService.Client, db: Db, batch: Batch, timer: TodoService.Handle)
    requires Inv(s) && WellFormed(db)
    requires Encodes(batch, s.events)
    requires forall j :: 0 <= j < |s.todos| && s.todos[j].id >= 1 ==> s.todos[j].id < db.nextId
    ensures SaveEvents(db, batch).response.Saved?
    ensures Inv(TodoService.PushEvents(s, TodoService.Accepted(SaveEvents(db, batch).response.ids), timer).client)
  {
    ClientBatchNeverRejected(db, batch, s.events);
    UpdatedNeverDecreases(db, batch);
    PushKeepsInv(s, TodoService.Accepted(SaveEvents(db, batch).response.ids), timer);
  }

  /**
   The first note of a fresh client, pushed: the server stores it under the next
   row id with `created_at = updated_at` = the client's timestamp and no
   `completed_at`, answers `{-1: id}`, and the client's cached note takes that id
   while the queue empties.
   */
  lemma AddRoundTrip(db: Db, text: string, now: int, timer: TodoService.Handle)
    requires WellFormed(db) && now >= 1 && Filled(Some(text))
    ensures var s := TodoService.Add(TodoService.Initial(), text, now);
      var batch := [(-1, EncodeQueue(s.events[-1]))];
      && Encodes(batch, s.events)
      && SaveEvents(db, batch) == Outcome(Db(db.notes[db.nextId := Note(text, now, Some(now), None)], db.nextId + 1),
                                          Saved(map[-1 := db.nextId], []))
      && TodoService.PushEvents(s, TodoService.Accepted(map[-1 := db.nextId]), timer)
         == TodoService.Returned(s.(events := map[], todos := [TodoService.Todo(db.nextId, text, now, None)]), true)
  {
    var s := TodoService.Add(TodoService.Initial(), text, now);
    InitialInv();
    AddFresh(TodoService.Initial(), text, now);
    var q := [Event(Create, now, Some(text))];
    assert s.events == map[-1 := q];
    var batch := [(-1, EncodeQueue(q))];
    assert EncodeQueue(q) == [WireEvent(Some(Create), Some(now), Some(text))];
    assert Encodes(batch, s.events) by {
      assert batch[0].0 == -1;
    }
    assert batch == [(-1, [WireEvent(Some(Create), Some(now), Some(text))])] + [];
    CreateInsertsNote(db, -1, text, now, [], map[], []);
  }
}

=== FILE: todo_event.dfy ===
/**
 The event schema shared by the client queue and the server applier: five kinds
 of mutation, a millisecond timestamp and an optional text, queued per note id.
 Also the supersede operations the client uses to keep at most one pending
 intent of each replaceable class per note.
 */
module TodoEvent {
  import opened Wrappers

  datatype EventType = Create | Delete | Edit | Complete | Uncomplete

  datatype Event = Event(kind: EventType, timestamp: int, text: Option<string>)

  /** The client queue: for each note id, its pending events in order. */
  type Events = map<int, seq<Event>>

  /** Classes of events a new event of the same class looks up in the queue. */
  datatype EventClass = Completion | Editing | Creation

  predicate InClass(k: EventType, c: EventClass) {
    match c
    case Completion => k == Complete || k == Uncomplete
    case Editing => k == Edit
    case Creation => k == Create
  }

  /** The pending events of `id`, the empty list when it has no entry. */
  function Queue(events: Events, id: int): seq<Event> {
    if id in events then events[id] else []
  }

  /** `findIndex` over a queue: the first position of an event of class `c`. */
  function FirstIndex(q: seq<Event>, c: EventClass): (r: Option<nat>)
    ensures r.None? <==> forall j :: 0 <= j < |q| ==> !InClass(q[j].kind, c)
    ensures r.Some? ==> r.value < |q| && InClass(q[r.value].kind, c)
    ensures r.Some? ==> forall j :: 0 <= j < r.value ==> !InClass(q[j].kind, c)
  {
    if |q| == 0 then None
    else if InClass(q[0].kind, c) then Some(0)
    else match FirstIndex(q[1..], c)
      case None => None
      case Some(i) => Some(i + 1)
  }

  /** `splice(i, 1)`: the queue without its `i`-th event, the others in order. */
  function RemoveAt(q: seq<Event>, i: nat): (r: seq<Event>)
    requires i < |q|
    ensures |r| == |q| - 1
    ensures forall j :: 0 <= j < i ==> r[j] == q[j]
    ensures forall j :: i <= j < |r| ==> r[j] == q[j + 1]
  {
    q[..i] + q[i + 1..]
  }

  /** Cancels the first pending event of class `c`, if there is one. */
  function Supersede(q: seq<Event>, c: EventClass): seq<Event> {
    match FirstIndex(q, c)
    case None => q
    case Some(i) => RemoveAt(q, i)
  }

  /** Number of events of class `c` in a queue. */
  function Count(q: seq<Event>, c: EventClass): nat {
    if |q| == 0 then 0
    else (if InClass(q[0].kind, c) then 1 else 0) + Count(q[1..], c)
  }

  lemma {:induction false} CountAppend(a: seq<Event>, b: seq<Event>, c: EventClass)
    ensures Count(a + b, c) == Count(a, c) + Count(b, c)
  {
    if |a| == 0 {
      assert a + b == b;
    } else {
      assert (a + b)[1..] == a[1..] + b;
      CountAppend(a[1..], b, c);
    }
  }

  lemma {:induction false} CountZero(q: seq<Event>, c: EventClass)
    ensures Count(q, c) == 0 <==> FirstIndex(q, c).None?
  {
    if |q| > 0 {
      CountZero(q[1..], c);
    }
  }

  lemma CountRemoveAt(q: seq<Event>, i: nat, c: EventClass)
    requires i < |q|
    ensures Count(RemoveAt(q, i), c) + (if InClass(q[i].kind, c) then 1 else 0) == Count(q, c)
  {
    assert q == q[..i] + q[i..];
    assert q[i..] == [q[i]] + q[i + 1..];
    CountAppend(q[..i], q[i..], c);
    CountAppend([q[i]], q[i + 1..], c);
    CountAppend(q[..i], q[i + 1..], c);
  }

  /** Superseding removes exactly one event of class `c` when there is one and leaves
      the count of every other class alone. */
  lemma SupersedeCount(q: seq<Event>, c: EventClass, d: EventClass)
    ensures Count(Supersede(q, c), c) == if Count(q, c) == 0 then 0 else Count(q, c) - 1
    ensures c != d ==> Count(Supersede(q, c), d) == Count(q, d)
  {
    CountZero(q, c);
    match FirstIndex(q, c)
    case None =>
    case Some(i) =>
      CountRemoveAt(q, i, c);
      CountRemoveAt(q, i, d);
      assert c != d ==> !InClass(q[i].kind, d) by {
        match c
        case Completion =>
        case Editing =>
        case Creation =>
      }
  }
}

=== FILE: todo_service.dfy ===
/**
 The client half of the synchronisation protocol: the event queue, the local
 note cache, the provisional id counter and the retry timer of `TodoService`.
 Every operation is a pure step from one client state to the next; the clock
 reading (`now`), the server's reply and the handle the scheduler hands out
 are parameters. Saving to local storage does not change the state and is
 not modelled.
 */
module TodoService {
  import opened Wrappers
  import opened TodoEvent

  /** A timer handle as returned by `setTimeout` (always a positive integer). */
  type Handle = h: int | h > 0 witness 1

  /** A cached note. Provisional ids are negative, server ids positive. */
  datatype Todo = Todo(id: int, text: string, created_at: int, completed_at: Option<int>)

  /**
   The client: the event queue, the note cache, the next provisional id, the
   `retryTimeout` field, and the set of timers the scheduler still holds
   (scheduled and neither fired nor cleared).
   */
  datatype Client = Client(
    events: Events,
    todos: seq<Todo>,
    nextId: int,
    retry: Option<Handle>,
    scheduled: set<Handle>)

  /** The first provisional id handed out. */
  const FirstProvisionalId: int := -1

  function Initial(): (s: Client)
    ensures s.events == map[] && s.todos == [] && s.scheduled == {}
    ensures s.nextId == FirstProvisionalId && s.retry == None
  {
    Client(map[], [], FirstProvisionalId, None, {})
  }

  /** The timers `clearTimeout(this.retryTimeout)` cancels. */
  function Held(retry: Option<Handle>): set<Handle> {
    match retry
    case None => {}
    case Some(h) => {h}
  }

  /** At most one timer is pending, and it is the one the client holds. */
  predicate SingleRetry(s: Client) {
    s.scheduled <= Held(s.retry)
  }

  /** `addEvent`: appends `e` to the queue of `id`, creating the entry if absent. */
  function AddEvent(events: Events, id: int, e: Event): (r: Events)
    ensures r.Keys == events.Keys + {id}
    ensures |r[id]| == |Queue(events, id)| + 1
    ensures r[id][..|r[id]| - 1] == Queue(events, id) && r[id][|r[id]| - 1] == e
    ensures forall k :: k in events && k != id ==> r[k] == events[k]
  {
    events[id := Queue(events, id) + [e]]
  }

  /** `add`: a new note under the next provisional id, with its `create` event. */
  function Add(s: Client, text: string, now: int): (r: Client)
    ensures r.nextId == s.nextId - 1
    ensures |r.todos| == |s.todos| + 1 && r.todos[..|s.todos|] == s.todos
    ensures r.todos[|s.todos|] == Todo(s.nextId, text, now, None)
    ensures r.events == AddEvent(s.events, s.nextId, Event(Create, now, Some(text)))
    ensures r.retry == s.retry && r.scheduled == s.scheduled
  {
    var id := s.nextId;
    var todo := Todo(id, text, now, None);
    s.(events := AddEvent(s.events, id, Event(Create, todo.created_at, Some(todo.text))),
       todos := s.todos + [todo],
       nextId := id - 1)
  }

  /** The cache with `completed_at` of the notes with `id` set for `mark`. */
  function SetCompleted(todos: seq<Todo>, id: int, completed_at: Option<int>): (r: seq<Todo>)
    ensures |r| == |todos|
    ensures forall j :: 0 <= j < |r| ==>
      r[j] == if todos[j].id == id then todos[j].(completed_at := completed_at) else todos[j]
  {
    seq(|todos|, j requires 0 <= j < |todos| =>
      if todos[j].id == id then todos[j].(completed_at := completed_at) else todos[j])
  }

  /** The queue of `id` after `mark`: a pending completion event is cancelled,
      otherwise a new `complete` or `uncomplete` is appended. */
  function MarkQueue(events: Events, id: int, completed: bool, now: int): (r: Events)
    ensures r.Keys == events.Keys + {id}
    ensures forall k :: k in events && k != id ==> r[k] == events[k]
    ensures FirstIndex(Queue(events, id), Completion).Some? ==>
      r[id] == RemoveAt(Queue(events, id), FirstIndex(Queue(events, id), Completion).value)
    ensures FirstIndex(Queue(events, id), Completion).None? ==>
      r[id] == Queue(events, id) + [Event(if completed then Complete else Uncomplete, now, None)]
  {
    match FirstIndex(Queue(events, id), Completion)
    case Some(i) => events[id := RemoveAt(events[id], i)]
    case None => AddEvent(events, id, Event(if completed then Complete else Uncomplete, now, None))
  }

  /** `mark`: records the completion state in the cache and in the queue. */
  function Mark(s: Client, id: int, completed: bool, now: int): (r: Client)
    ensures r.events == MarkQueue(s.events, id, completed, now)
    ensures |r.todos| == |s.todos|
    ensures forall j :: 0 <= j < |r.todos| && s.todos[j].id == id ==>
      r.todos[j].completed_at == (if completed then Some(now) else None)
    ensures forall j :: 0 <= j < |r.todos| ==>
      && r.todos[j].id == s.todos[j].id && r.todos[j].text == s.todos[j].text
      && r.todos[j].created_at == s.todos[j].created_at
    ensures forall j :: 0 <= j < |r.todos| && s.todos[j].id != id ==> r.todos[j] == s.todos[j]
    ensures r.nextId == s.nextId && r.retry == s.retry && r.scheduled == s.scheduled
  {
    var timestamp := now;
    s.(todos := SetCompleted(s.todos, id, if completed then Some(timestamp) else None),
       events := MarkQueue(s.events, id, completed, timestamp))
  }

  /** `edit`: cancels the first pending `edit` of the note and queues a new one
      carrying the note's current text. The cache is not touched. */
  function Edit(s: Client, id: int, text: string, now: int): (r: Client)
    ensures r.events.Keys == s.events.Keys + {id}
    ensures forall k :: k in s.events && k != id ==> r.events[k] == s.events[k]
    ensures Count(Queue(s.events, id), Editing) <= 1 ==> Count(r.events[id], Editing) == 1
    ensures r.events[id] == Supersede(Queue(s.events, id), Editing) + [Event(EventType.Edit, now, Some(text))]
    ensures r.todos == s.todos && r.nextId == s.nextId
    ensures r.retry == s.retry && r.scheduled == s.scheduled
  {
    var q := Supersede(Queue(s.events, id), Editing);
    var e := Event(EventType.Edit, now, Some(text));
    SupersedeCount(Queue(s.events, id), Editing, Editing);
    CountAppend(q, [e], Editing);
    assert Count([e], Editing) == 1 by {
      assert [e][1..] == [];
    }
    s.(events := s.events[id := q + [e]])
  }

  /** True when the queue of `id` still holds its `create`: the note never reached the server. */
  predicate HasPendingCreate(events: Events, id: int) {
    FirstIndex(Queue(events, id), Creation).Some?
  }

  /** `findIndex` over the cache: the first note with `id`. */
  function TodoIndex(todos: seq<Todo>, id: int): (r: Option<nat>)
    ensures r.None? <==> forall j :: 0 <= j < |todos| ==> todos[j].id != id
    ensures r.Some? ==> r.value < |todos| && todos[r.value].id == id
    ensures r.Some? ==> forall j :: 0 <= j < r.value ==> todos[j].id != id
  {
    if |todos| == 0 then None
    else if todos[0].id == id then Some(0)
    else match TodoIndex(todos[1..], id)
      case None => None
      case Some(i) => Some(i + 1)
  }

  /** The cache without the first note with `id`. */
  function RemoveTodo(todos: seq<Todo>, id: int): (r: seq<Todo>)
    ensures TodoIndex(todos, id).None? ==> r == todos
    ensures TodoIndex(todos, id).Some? ==> |r| == |todos| - 1
    ensures TodoIndex(todos, id).Some? ==>
      forall j :: 0 <= j < TodoIndex(todos, id).value ==> r[j] == todos[j]
    ensures TodoIndex(todos, id).Some? ==>
      forall j :: TodoIndex(todos, id).value <= j < |r| ==> r[j] == todos[j + 1]
  {
    match TodoIndex(todos, id)
    case None => todos
    case Some(i) => todos[..i] + todos[i + 1..]
  }

  /** `delete`: drops the note from the cache; drops its whole queue entry when the
      `create` is still pending, otherwise replaces the entry with one `delete`. */
  function Delete(s: Client, id: int, now: int): (r: Client)
    ensures HasPendingCreate(s.events, id) ==> id !in r.events
    ensures !HasPendingCreate(s.events, id) ==> id in r.events && r.events[id] == [Event(EventType.Delete, now, None)]
    ensures forall k :: k != id ==> (k in r.events <==> k in s.events)
    ensures forall k :: k in s.events && k != id ==> r.events[k] == s.events[k]
    ensures r.todos == RemoveTodo(s.todos, id)
    ensures r.nextId == s.nextId && r.retry == s.retry && r.scheduled == s.scheduled
  {
    var hadCreate := HasPendingCreate(s.events, id);
    var events := if id in s.events then s.events - {id} else s.events;
    var todos := RemoveTodo(s.todos, id);
    var events' := if !hadCreate then AddEvent(events, id, Event(EventType.Delete, now, None)) else events;
    s.(events := events', todos := todos)
  }

  /** What the `POST /todonotes/events` request came back with. `Failed` stands
      for a network error and for every non-success status except 401. */
  datatype Reply = Accepted(ids: map<int, int>) | Unauthorized | Failed

  /** `pushEvents` either returns its boolean or re-raises `UnauthorizedError`. */
  datatype PushOutcome = Returned(client: Client, ok: bool) | Raised(client: Client)

  /** The cache after a successful push: every note whose id the server remapped takes its new id. */
  function Remap(todos: seq<Todo>, ids: map<int, int>): (r: seq<Todo>)
    ensures |r| == |todos|
    ensures forall j :: 0 <= j < |r| ==>
      r[j] == if todos[j].id in ids then todos[j].(id := ids[todos[j].id]) else todos[j]
  {
    seq(|todos|, j requires 0 <= j < |todos| =>
      if todos[j].id in ids then todos[j].(id := ids[todos[j].id]) else todos[j])
  }

  /**
   `pushEvents`: with an empty queue, succeeds without a request. Otherwise the
   reply decides: on success the queue is cleared, the cache remapped and the
   held timer cleared (the field keeps its stale handle, as in the source); on
   401 the error propagates with nothing changed; on any other failure the held
   timer is cleared and `timer`, the handle of a new retry timer, is scheduled.
   */
  function PushEvents(s: Client, reply: Reply, timer: Handle): (r: PushOutcome)
    ensures |s.events| == 0 ==> r == Returned(s, true)
    ensures |s.events| > 0 && reply.Unauthorized? ==> r == Raised(s)
    ensures |s.events| > 0 && reply.Accepted? ==>
      && r.Returned? && r.ok
      && r.client.events == map[]
      && r.client.todos == Remap(s.todos, reply.ids)
      && r.client.scheduled == s.scheduled - Held(s.retry)
      && r.client.nextId == s.nextId && r.client.retry == s.retry
    ensures |s.events| > 0 && reply.Failed? ==>
      && r.Returned? && !r.ok
      && r.client.events == s.events && r.client.todos == s.todos
      && r.client.retry == Some(timer)
      && r.client.scheduled == s.scheduled - Held(s.retry) + {timer}
      && r.client.nextId == s.nextId
    ensures SingleRetry(s) ==> SingleRetry(r.client)
  {
    if |s.events| == 0 then
      Returned(s, true)
    else
      match reply
      case Unauthorized => Raised(s)
      case Failed =>
        Returned(s.(retry := Some(timer), scheduled := s.scheduled - Held(s.retry) + {timer}), false)
      case Accepted(ids) =>
        Returned(s.(events := map[], todos := Remap(s.todos, ids), scheduled := s.scheduled - Held(s.retry)), true)
  }

  /** The retry timer `t` fires: the scheduler drops it and `pushEvents(true)` runs. */
  function RetryFires(s: Client, t: Handle, reply: Reply, timer: Handle): (r: PushOutcome)
    requires t in s.scheduled
    ensures SingleRetry(s) ==> SingleRetry(r.client)
    ensures t != timer ==> t !in r.client.scheduled
    ensures |s.events| == 0 ==> r == Returned(s.(scheduled := s.scheduled - {t}), true)
    ensures |s.events| > 0 && reply.Unauthorized? ==> r == Raised(s.(scheduled := s.scheduled - {t}))
    ensures |s.events| > 0 && reply.Accepted? ==>
      && r.Returned? && r.ok
      && r.client.events == map[] && r.client.todos == Remap(s.todos, reply.ids)
      && r.client.scheduled == (s.scheduled - {t}) - Held(s.retry)
      && r.client.nextId == s.nextId && r.client.retry == s.retry
    ensures |s.events| > 0 && reply.Failed? ==>
      && r.Returned? && !r.ok
      && r.client.events == s.events && r.client.todos == s.todos
      && r.client.retry == Some(timer)
      && r.client.scheduled == (s.scheduled - {t}) - Held(s.retry) + {timer}
  {
    PushEvents(s.(scheduled := s.scheduled - {t}), reply, timer)
  }
}

=== FILE: todo_service_properties.dfy ===
/**
 Properties of the client queue: the invariant every operation keeps (fresh
 provisional ids, at most one pending completion and one pending edit per
 note, at most one retry timer), and the cancel/replace laws of `mark`,
 `edit` and `delete`.
 */
module TodoServiceProperties {
  import opened Wrappers
  import opened TodoEvent
  import opened TodoService

  /** At most one pending `complete`/`uncomplete` and at most one pending `edit`. */
  predicate QueueShape(q: seq<Event>) {
    Count(q, Completion) <= 1 && Count(q, Editing) <= 1
  }

  /** Every id in use lies above the counter, so the next provisional id is unused. */
  predicate IdsAboveCounter(s: Client) {
    && (forall k :: k in s.events ==> k > s.nextId)
    && (forall j :: 0 <= j < |s.todos| ==> s.todos[j].id > s.nextId)
  }

  /** Cache ids are distinct. */
  predicate UniqueIds(todos: seq<Todo>) {
    forall i, j :: 0 <= i < j < |todos| ==> todos[i].id != todos[j].id
  }

  predicate Inv(s: Client) {
    && s.nextId <= FirstProvisionalId
    && IdsAboveCounter(s)
    && UniqueIds(s.todos)
    && (forall k :: k in s.events ==> QueueShape(s.events[k]))
    && SingleRetry(s)
  }

  lemma InitialInv()
    ensures Inv(Initial())
  {
  }

  lemma SingletonCounts(e: Event, c: EventClass)
    ensures Count([e], c) == if InClass(e.kind, c) then 1 else 0
  {
    assert [e][1..] == [];
  }

  /** `add` takes an id nobody uses: its queue is exactly the one `create`, and the
      invariant holds afterwards. */
  lemma AddFresh(s: Client, text: string, now: int)
    requires Inv(s)
    ensures s.nextId !in s.events
    ensures forall j :: 0 <= j < |s.todos| ==> s.todos[j].id != s.nextId
    ensures Add(s, text, now).events[s.nextId] == [Event(Create, now, Some(text))]
    ensures Add(s, text, now).nextId < s.nextId < FirstProvisionalId + 1
    ensures Inv(Add(s, text, now))
  {
    var r := Add(s, text, now);
    SingletonCounts(Event(Create, now, Some(text)), Completion);
    SingletonCounts(Event(Create, now, Some(text)), Editing);
    assert r.events[s.nextId] == [Event(Create, now, Some(text))];
    forall j | 0 <= j < |r.todos|
      ensures r.todos[j].id > r.nextId
      ensures j < |s.todos| ==> r.todos[j] == s.todos[j]
    {
      if j < |s.todos| {
        assert r.todos[j] == r.todos[..|s.todos|][j];
      }
    }
  }

  /** `mark` keeps the invariant: the pending completion count goes 0 -> 1 or 1 -> 0. */
  lemma MarkKeepsInv(s: Client, id: int, completed: bool, now: int)
    requires Inv(s)
    requires id > s.nextId
    ensures Inv(Mark(s, id, completed, now))
  {
    var r := Mark(s, id, completed, now);
    var q := Queue(s.events, id);
    assert QueueShape(q) by {
      if id !in s.events {
        assert q == [];
      }
    }
    match FirstIndex(q, Completion)
    case Some(i) =>
      CountRemoveAt(q, i, Completion);
      CountRemoveAt(q, i, Editing);
    case None =>
      var e := Event(if completed then Complete else Uncomplete, now, None);
      CountZero(q, Completion);
      CountAppend(q, [e], Completion);
      CountAppend(q, [e], Editing);
      SingletonCounts(e, Completion);
      SingletonCounts(e, Editing);
  }

  /** `edit` keeps the invariant: afterwards the note has exactly one pending `edit`. */
  lemma EditKeepsInv(s: Client, id: int, text: string, now: int)
    requires Inv(s)
    requires id > s.nextId
    ensures Inv(TodoService.Edit(s, id, text, now))
  {
    var q := Queue(s.events, id);
    var e := Event(EventType.Edit, now, Some(text));
    assert QueueShape(q) by {
      if id !in s.events {
        assert q == [];
      }
    }
    SupersedeCount(q, Editing, Completion);
    CountAppend(Supersede(q, Editing), [e], Completion);
    SingletonCounts(e, Completion);
  }

  /** `delete` keeps the invariant: the entry is gone or is a single `delete`. */
  lemma DeleteKeepsInv(s: Client, id: int, now: int)
    requires Inv(s)
    requires id > s.nextId
    ensures Inv(TodoService.Delete(s, id, now))
  {
    var r := TodoService.Delete(s, id, now);
    SingletonCounts(Event(EventType.Delete, now, None), Completion);
    SingletonCounts(Event(EventType.Delete, now, None), Editing);
    var i := TodoIndex(s.todos, id);
    if i.Some? {
      forall j | 0 <= j < |r.todos|
        ensures r.todos[j] == s.todos[if j < i.value then j else j + 1]
      {
      }
      assert UniqueIds(r.todos) by {
        forall a, b | 0 <= a < b < |r.todos|
          ensures r.todos[a].id != r.todos[b].id
        {
          var a' := if a < i.value then a else a + 1;
          var b' := if b < i.value then b else b + 1;
          assert a' < b';
          assert r.todos[a] == s.todos[a'] && r.todos[b] == s.todos[b'];
        }
      }
    }
  }

  /**
   What the client relies on in the server's `ids`: positive row ids, distinct
   for distinct keys, and none already the id of a cached note.
   */
  predicate SoundIds(ids: map<int, int>, todos: seq<Todo>) {
    && (forall k :: k in ids ==> ids[k] >= 1)
    && (forall a, b :: a in ids && b in ids && a != b ==> ids[a] != ids[b])
    && (forall k, j :: k in ids && 0 <= j < |todos| ==> todos[j].id != ids[k])
  }

  /** Renaming the cache with sound ids keeps cache ids distinct. */
  lemma RemapKeepsUnique(todos: seq<Todo>, ids: map<int, int>)
    requires UniqueIds(todos) && SoundIds(ids, todos)
    ensures UniqueIds(Remap(todos, ids))
  {
    var r := Remap(todos, ids);
    forall a, b | 0 <= a < b < |r|
      ensures r[a].id != r[b].id
    {
      assert todos[a].id != todos[b].id;
    }
  }

  /** A push keeps the invariant, given sound ids from the server. */
  lemma PushKeepsInv(s: Client, reply: Reply, timer: Handle)
    requires Inv(s)
    requires reply.Accepted? ==> SoundIds(reply.ids, s.todos)
    ensures Inv(PushEvents(s, reply, timer).client)
  {
    if reply.Accepted? {
      RemapKeepsUnique(s.todos, reply.ids);
    }
  }

  /** A firing retry keeps the invariant. */
  lemma RetryKeepsInv(s: Client, t: Handle, reply: Reply, timer: Handle)
    requires Inv(s)
    requires t in s.scheduled
    requires reply.Accepted? ==> SoundIds(reply.ids, s.todos)
    ensures Inv(RetryFires(s, t, reply, timer).client)
  {
    PushKeepsInv(s.(scheduled := s.scheduled - {t}), reply, timer);
  }

  /** Marking twice before a push: the second `mark` cancels the event the first
      queued, so the queue is back to what it was and holds no completion event. */
  lemma MarkTwiceCancels(s: Client, id: int, first: bool, second: bool, t1: int, t2: int)
    requires FirstIndex(Queue(s.events, id), Completion).None?
    ensures Mark(Mark(s, id, first, t1), id, second, t2).events == s.events[id := Queue(s.events, id)]
    ensures Count(Mark(Mark(s, id, first, t1), id, second, t2).events[id], Completion) == 0
  {
    var q := Queue(s.events, id);
    var s1 := Mark(s, id, first, t1);
    var e := Event(if first then Complete else Uncomplete, t1, None);
    assert Queue(s1.events, id) == q + [e];
    assert FirstIndex(q + [e], Completion) == Some(|q|) by {
      assert forall j :: 0 <= j < |q| ==> (q + [e])[j] == q[j];
    }
    assert RemoveAt(q + [e], |q|) == q;
    CountZero(q, Completion);
  }

  /** Editing twice before a push keeps only the latest edit, appended after the
      events that were there before the first edit. */
  lemma EditTwiceKeepsLatest(s: Client, id: int, t1: string, t2: string, n1: int, n2: int)
    requires Count(Queue(s.events, id), Editing) <= 1
    ensures TodoService.Edit(TodoService.Edit(s, id, t1, n1), id, t2, n2).events[id]
         == Supersede(Queue(s.events, id), Editing) + [Event(EventType.Edit, n2, Some(t2))]
  {
    var q := Supersede(Queue(s.events, id), Editing);
    var e := Event(EventType.Edit, n1, Some(t1));
    SupersedeCount(Queue(s.events, id), Editing, Editing);
    CountZero(q, Editing);
    assert FirstIndex(q + [e], Editing) == Some(|q|) by {
      assert forall j :: 0 <= j < |q| ==> (q + [e])[j] == q[j];
      assert (q + [e])[|q|] == e;
    }
    assert RemoveAt(q + [e], |q|) == q;
  }

  /** With distinct cache ids, `delete` leaves no note with that id and keeps every other note. */
  lemma DeleteRemovesNote(s: Client, id: int, now: int)
    requires UniqueIds(s.todos)
    ensures forall j :: 0 <= j < |TodoService.Delete(s, id, now).todos| ==> TodoService.Delete(s, id, now).todos[j].id != id
    ensures forall t :: t in s.todos && t.id != id ==> t in TodoService.Delete(s, id, now).todos
  {
    var r := TodoService.Delete(s, id, now);
    match TodoIndex(s.todos, id)
    case None =>
    case Some(i) =>
      forall t | t in s.todos && t.id != id
        ensures t in r.todos
      {
        var j :| 0 <= j < |s.todos| && s.todos[j] == t;
        if j < i {
          assert r.todos[j] == t;
        } else {
          assert j > i;
          assert r.todos[j - 1] == t;
        }
      }
  }

  /** `delete` of a note whose `create` never left the client puts nothing on the wire for it. */
  lemma DeleteUnsentSendsNothing(s: Client, id: int, now: int)
    requires HasPendingCreate(s.events, id)
    ensures id !in TodoService.Delete(s, id, now).events
    ensures TodoService.Delete(s, id, now).events == s.events - {id}
  {
  }

  /** A failed push leaves the queue and cache as they were and exactly one retry pending. */
  lemma FailedPushSchedulesOneRetry(s: Client, timer: Handle)
    requires SingleRetry(s)
    requires |s.events| > 0
    ensures PushEvents(s, Failed, timer).client.scheduled == {timer}
    ensures PushEvents(s, Failed, timer).client.events == s.events
    ensures PushEvents(s, Failed, timer).client.todos == s.todos
  {
  }

  /** A successful push leaves no retry pending and an empty queue. */
  lemma AcceptedPushClearsRetry(s: Client, ids: map<int, int>, timer: Handle)
    requires SingleRetry(s)
    ensures PushEvents(s, Accepted(ids), timer).client.scheduled == {}
           || |s.events| == 0
    ensures PushEvents(s, Accepted(ids), timer).client.events == map[]
  {
  }
}

=== FILE: wrappers.dfy ===
/** Optional values, standing in for `undefined` / `null` in the client and server. */
module Wrappers {

  datatype Option<+T> = None | Some(value: T) {

    /** The value, or `default` for an absent one. */
    function GetOr(default: T): T {
      match this
      case Some(v) => v
      case None => default
    }
  }
}
